=== FILE: README.md ===
# Merchant credit ledger and withdrawal settlement, in Dafny

This project models the wallet service of Merchant-Credit-Gateway, a Django service. Merchants draw on a shared credit pool, each up to its own credit limit. Every draw goes through a withdrawal that an external bank-settlement service has to confirm.

The model covers:

- **Money (`money.dfy`).** Amounts are integer cents. `q`, Python's `quantize(Decimal('0.01'), ROUND_HALF_UP)`, is modelled on decimals `unscaled × 10^-scale`. It is proved equal to a reference definition of "nearest cent, ties away from zero".
- **Credit consumption (`models.dfy`).** `atomic_consume_credit` is one transition of an immutable `Store`, which holds:
  - the pool;
  - the merchants and their credit rows;
  - the append-only ledger;
  - the withdrawal records.

  A raised exception is an `Err`, and the caller keeps its old store, which is the rollback. The store invariant `Valid` holds:
  - the database check constraints;
  - one credit row per merchant;
  - a ledger made of DEBIT/CREDIT pairs with distinct transaction ids;
  - `utilized == sum of the merchant's CREDIT rows`.

  The concurrent test's twenty withdrawals are a sequential fold. The row lock on the pool serialises them.
- **Merchant lifecycle (`merchants.dfy`).** `create_merchant` and `approve_merchant`.
- **Rate limiting (`ratelimit.dfy`).** The fixed-window Redis counter `rate_limit_allow`, with the clock as a parameter.
- **Settlement stub (`settlement.dfy`).** The FastAPI stub `settlement_withdraw`: bearer-token checks and the bank reference. The model also gives a parser for the reference and proves it reads back merchant, account prefix and amount.
- **Asynchronous task (`tasks.dfy`).** The Celery task `dispatch_settlement`. Each delivery takes as inputs the retry count and the settlement reply.
- **HTTP views (`views.dfy`).** `create_withdrawal` and `admin_topup_pool`. The service state is the database, the idempotency table, the rate-limit counters, the task queue and the cached profiles.

`results.dfy` holds `Option`/`Result`. `text.dfy` holds the Python string operations the code relies on: `str()` of an integer, `replace`, slicing and `split(' ', 1)`.

Four behaviours of the code a reader might not expect:

- **The async task ignores the reply's `status`.** The task settles on any 200 whose body is JSON. Only the synchronous view checks `status == "SUCCESS"`. (`Tasks.BodyStatusNotInspected`)
- **A failed consumption in the task does not set FAILED.** The status write is rolled back with the consumption, so the withdrawal keeps PENDING or QUEUED. The synchronous view does set FAILED on a `ValueError`. (`Tasks.ConsumeErrorKeepsStatus`)
- **The task gives up after 3 retries, not 5.** The guard that marks a withdrawal FAILED compares the retry count with the task's `max_retries` attribute. That attribute keeps Celery's default of 3, because the decorator's `retry_kwargs={'max_retries': 5}` reaches only the automatic retry call. The delivery at retries 3 writes FAILED and re-raises. Within the decorator's budget, Celery then makes exactly one more delivery, at retries 4. The entry guard turns it away and it returns normally, so a reply of 200 there settles nothing. (`Tasks.GivesUpWithinRetryBudget`)
- **FAILED is not strictly terminal.** The task's re-read under lock tests only for SUCCESS. A withdrawal that another delivery turned FAILED in between is still consumed and set to SUCCESS. (`Tasks.FinalizeRevivesFailed`)

## Model

| member | source | states |
|---|---|---|
| Money.Quantize | services/wallet_core/payments/models.py:10-12 | the result is the value rounded to the nearest cent, ties away from zero (checked against the reference definition) |
| Money.QuantizeIsCentsRounding | services/wallet_core/payments/models.py:10-12 | `q(d)` is the nearest cent with ties away from zero, and it is the only value that is (both directions) |
| Money.QuantizeCents | services/wallet_core/payments/models.py:10-12 | an amount already in cents is returned unchanged |
| Money.QuantizeExamples | services/wallet_core/payments/models.py:10-12 | 1.005 rounds to 1.01, 1.0049 to 1.00, -1.005 to -1.01 |
| Money.QuantizeNegate | services/wallet_core/payments/models.py:10-12 | ROUND_HALF_UP is symmetric about zero |
| Money.CentsToText | services/wallet_core/payments/tasks.py:31 | `str()` of a two-place amount: a '-' exactly for negatives, then the whole part without leading zeros ("0" when it is zero) spelling |c| / 100, a '.', and exactly two digits spelling |c| mod 100 |
| Money.CentsTextWithoutPoint | services/settlement_service/app.py:23 | `str(amount)` with every '.' removed is an optional sign and digits spelling the amount in cents |
| Models.MerchantCredit.Available | services/wallet_core/payments/models.py:60-62 | for stored values, which are whole cents, the headroom is the limit minus utilized (`q` changes neither) |
| Models.ConsumeCredit | services/wallet_core/payments/models.py:99-122 | refused for missing merchant credit before the pool is looked at, each error exactly when its condition holds; on success the pool drops and utilized rises by exactly `amount`, only this merchant's row changes, and one DEBIT/CREDIT_POOL + CREDIT/MERCHANT_CREDIT pair under a fresh tx id is appended after the untouched old ledger |
| Models.MerchantCheckFirst | services/wallet_core/payments/models.py:105-108 | when both the merchant headroom and the pool are short the error is INSUFFICIENT_MERCHANT_CREDIT |
| Models.ConsumePositiveNeverViolatesChecks | services/wallet_core/payments/models.py:105-112 | for a positive amount on a valid store, consumption succeeds exactly when headroom and pool both cover it |
| Models.EmptyStoreValid | services/wallet_core/payments/models.py:30-33 | the initial database (pool 0.00, nothing else) satisfies every invariant |
| Models.ConsumePreservesValid | services/wallet_core/payments/models.py:36-58 | a successful consumption keeps the check constraints, the pairing of the ledger, distinct tx ids and utilized = ledger credits |
| Models.ConsumeConservesPool | services/wallet_core/payments/models.py:107-121 | pool plus everything the ledger debited from it is unchanged by a consumption |
| Models.ConsumeTxIdFresh | services/wallet_core/payments/models.py:113-121 | the new transaction id occurs nowhere in the earlier ledger |
| Models.TxIdsDistinctAppend | services/wallet_core/payments/models.py:113-121 | a pair appended under an id above every earlier id keeps ids distinct across pairs |
| Models.PairedEven | services/wallet_core/payments/models.py:113-121 | a ledger written only in pairs has even length |
| Models.ConsumeRepeatedlyCount | services/wallet_core/payments/models.py:102-112 | n serialised attempts succeed exactly min(n, headroom / amount) times, balances move by that many amounts, and every other attempt fails for merchant credit |
| Models.TwentyAttemptsOnTenUnits | services/wallet_core/payments/tests/test_concurrent_withdrawals.py:59-80 | limit 10.00, pool 1000.00, twenty attempts of 1.00: ten succeed, utilized 10.00, pool 990.00, ten INSUFFICIENT_MERCHANT_CREDIT |
| Merchants.CreateMerchant | services/wallet_core/payments/services.py:6-12 | refused exactly for an empty username or one that any user already has, staff accounts included (the unique `auth_user.username`, compared as raw strings); otherwise the name becomes a user, and the new merchant is unapproved with a fresh account and a credit row with limit 0 and utilized 0; nothing else changes |
| Merchants.RegisterTwiceRefused | services/wallet_core/payments/services.py:8 | a name that registered once is refused a second time, whatever the second request asks for |
| Merchants.CreateMerchantPreservesValid | services/wallet_core/payments/services.py:6-12 | registration keeps the invariants; the merchant id and account are fresh and the ledger credits it nothing |
| Merchants.NewMerchantHasNoCredit | services/wallet_core/payments/services.py:9-11 | the requested credit is not granted: before approval every positive consumption is refused for merchant credit |
| Merchants.ApproveMerchant | services/wallet_core/payments/services.py:15-23 | succeeds exactly when the merchant and its credit row exist and the new limit satisfies the check constraints (non-negative, at least utilized); on success approved is set, the limit replaced, utilized kept and the users unchanged |
| Merchants.ApprovePreservesValid | services/wallet_core/payments/services.py:15-23 | approval keeps the invariants |
| Merchants.ApprovalGrantsHeadroom | services/wallet_core/payments/services.py:19-22 | after approval with limit L the headroom is L minus what was already utilized |
| RateLimit.Bucket | services/wallet_core/payments/utils/cache.py:33 | the bucket b of `now` satisfies b·window ≤ now < (b+1)·window (floor division) |
| RateLimit.Allow | services/wallet_core/payments/utils/cache.py:26-40 | exactly one counter, the one for (key, bucket), rises by 1; admitted iff the new count ≤ max; remaining = max(0, max − count), 0 whenever denied |
| RateLimit.SameBucketIffSameWindow | services/wallet_core/payments/utils/cache.py:32-34 | two instants share a counter iff they fall in the same window |
| RateLimit.RunInOneBucket | services/wallet_core/payments/utils/cache.py:33-40 | calls in one bucket starting at count k: the i-th is admitted iff k + i + 1 ≤ max |
| RateLimit.FreshBucketAdmitsExactlyMax | services/wallet_core/payments/utils/cache.py:33-40 | from an unused bucket the first max calls are admitted and every later one denied |
| RateLimit.NewWindowStartsAtOne | services/wallet_core/payments/utils/cache.py:33-36 | the first call in an unused bucket counts 1 whatever earlier buckets saw (fixed window) |
| RateLimit.SixCallsLimitFive | services/wallet_core/payments/utils/cache.py:26-40 | limit 5, window 60: six calls in one window admit five and deny the sixth |
| RateLimit.BoundaryBurstAdmitted | services/wallet_core/payments/utils/cache.py:33-40 | up to max calls at the end of one window and up to max at the start of the next are all admitted, however close together |
| RateLimit.BoundaryBurstAdmitsTwiceTheLimit | services/wallet_core/payments/utils/cache.py:33-40 | ten calls straddling a window boundary with limit 5 are all admitted |
| RateLimit.RunConcat | services/wallet_core/payments/utils/cache.py:33-38 | running two call sequences back to back is running their concatenation |
| SettlementService.Withdraw | services/settlement_service/app.py:16-24 | 401 exactly when the header is missing or lacks "Bearer ", checked before the token; 403 exactly when the text after "Bearer " differs from the token; otherwise SUCCESS with the request's bank reference |
| SettlementService.BearerHeaderAccepted | services/settlement_service/app.py:18-22 | "Bearer " + t is accepted iff t is the internal token |
| SettlementService.SettledOnTheWire | services/settlement_service/app.py:23-24 | with the right token the wallet receives 200 with status SUCCESS and the reference |
| SettlementService.ReferenceIgnoresBankAccount | services/settlement_service/app.py:23-24 | the settled reply does not depend on the bank account |
| SettlementService.BankReference | services/settlement_service/app.py:23 | the reference begins "BNK-<merchant id>-" and is at most ten characters longer than the merchant id and the amount's text together |
| SettlementService.ReferenceParts8 | services/settlement_service/app.py:23 | the reference starts "BNK-<merchant>-", the account part is at most 8 characters and a short id is used whole, the amount part holds no '.' |
| SettlementService.ReferenceRoundTrip | services/settlement_service/app.py:23 | for non-negative merchant and amount and a dash-free account prefix, parsing the reference gives back merchant, account[:8] and amount in cents |
| SettlementService.ReferenceDeterminesRequest | services/settlement_service/app.py:23 | two such requests have the same reference iff they agree on merchant, account prefix and amount |
| SettlementService.OnTheWire | services/settlement_service/app.py:18-24 | the three outcomes reach the caller as 401, 403, or 200 with a JSON body holding status and bank_reference |
| Tasks.SettlementRequest | services/wallet_core/payments/tasks.py:28-33 | the posted body carries the withdrawal's merchant and amount and the account id |
| Tasks.Dispatch | services/wallet_core/payments/tasks.py:14-67 | a missing withdrawal is reported; pool, credits and ledger change only on a delivery that settles |
| Tasks.Finalize | services/wallet_core/payments/tasks.py:59-67 | after a 200: no change unless it settles; settling requires the re-read status not SUCCESS and a successful consumption, and writes SUCCESS with the reply's reference or "" |
| Tasks.TerminalIsNoOp | services/wallet_core/payments/tasks.py:19-21 | a SUCCESS or FAILED withdrawal is reported as stored and nothing changes |
| Tasks.TransientRetriesThenFails | services/wallet_core/payments/tasks.py:40-56 | no response, a 5xx or an undecodable 200 changes nothing while retries < 3 (the task's `max_retries`); from 3 retries on, the withdrawal becomes FAILED and nothing else changes |
| Tasks.TransientIsReraised | services/wallet_core/payments/tasks.py:40-56 | the replies classed as transient (no response, a 5xx, a 200 whose body is not JSON) are exactly those that end in a retry, or in giving up once retries are exhausted; every other reply is an answer below 500 that is either not 200 or has a JSON body |
| Tasks.GivesUpWithinRetryBudget | services/wallet_core/payments/tasks.py:13-56 | transient failures at retries 0 to 3 and a fifth delivery at retries 4 answered by anything: the withdrawal ends FAILED, the fifth delivery is turned away by the entry guard, and nothing settles |
| Tasks.ClientErrorFailsAtOnce | services/wallet_core/payments/tasks.py:45-49 | a non-200 below 500 sets FAILED at once, whatever the retry count, without consuming |
| Tasks.OkConsumesOnce | services/wallet_core/payments/tasks.py:59-67 | a 200 JSON reply consumes the amount once (pool down by it, one ledger pair) and sets SUCCESS with the reply's reference or "" |
| Tasks.BodyStatusNotInspected | services/wallet_core/payments/tasks.py:50-66 | the outcome of a 200 does not depend on the body's "status" |
| Tasks.ConsumeErrorKeepsStatus | services/wallet_core/payments/tasks.py:59-66 | a consumption that raises leaves the store, status included, as it was |
| Tasks.FinalizeRevivesFailed | services/wallet_core/payments/tasks.py:60-66 | a withdrawal found FAILED at the locked re-read is consumed and set to SUCCESS |
| Tasks.SetStatusPreservesValid | services/wallet_core/payments/tasks.py:47-55 | a status write keeps the invariants |
| Tasks.FinalizePreservesValid | services/wallet_core/payments/tasks.py:59-66 | the locked consume-and-mark-SUCCESS block keeps the invariants |
| Tasks.DispatchPreservesValid | services/wallet_core/payments/tasks.py:14-67 | every delivery keeps the invariants |
| Tasks.DeliveriesAfterSuccess | services/wallet_core/payments/tasks.py:19-21 | once SUCCESS, any number of further deliveries change nothing and settle nothing |
| Tasks.AtMostOneConsumption | services/wallet_core/payments/tasks.py:19-62 | over any sequence of deliveries for one withdrawal at most one settles and the ledger grows by at most one pair |
| Views.ValidationGap | services/wallet_core/payments/serializers.py:27-28 | the serializer as written and the validation `MinValueValidator(0.01)` asks for (models.py:83) agree on every amount of at least one cent and differ exactly on zero and negative amounts, which only the corrected one refuses |
| Views.NegativeWithdrawalRaisesPool | services/wallet_core/payments/views.py:120-129 | as written, -5.00 passes validation and its consumption succeeds on a valid store, raising the pool by 5.00 and lowering utilized by 5.00 |
| Views.SettleSync | services/wallet_core/payments/views.py:142-189 | the synchronous path never touches queue or counters; the ledger changes only when the response is 200; the key table gains this request's record exactly when the response is the stored 200, and is untouched otherwise |
| Views.CreateWithdrawal | services/wallet_core/payments/views.py:92-189 | every request moves its rate-limit counter; 429 exactly when the limiter denies; the ledger changes only with a 200; at most one withdrawal record is added |
| Views.RateLimitComesFirst | services/wallet_core/payments/views.py:98-104 | a denied request gets 429 with retry_in_seconds = window and changes nothing but its counter, before any idempotency lookup |
| Views.ReplayReturnsStored | services/wallet_core/payments/views.py:110-114 | a known key with the same hash replays the stored response with 200; database, table and queue unchanged |
| Views.KeyConflict | services/wallet_core/payments/views.py:115-116 | a known key with another hash is 409 IDEMPOTENCY_KEY_CONFLICT with no other effect |
| Views.EmptyKeyIsNoKey | services/wallet_core/payments/views.py:107-110 | an empty Idempotency-Key header behaves as no header |
| Views.InvalidAmountRejected | services/wallet_core/payments/views.py:120-121 | a missing, malformed or non-positive amount is 400 and records nothing |
| Views.UnapprovedForbidden | services/wallet_core/payments/views.py:122-124 | an unapproved merchant gets 403 MERCHANT_NOT_APPROVED and no withdrawal is recorded |
| Views.AsyncQueues | services/wallet_core/payments/views.py:128-140 | async mode: a QUEUED record is appended and its id queued, 202 with the id, stored under the key if any, nothing consumed |
| Views.SyncSettlementFailureFails | services/wallet_core/payments/views.py:142-164 | no response, non-200, non-JSON or status ≠ SUCCESS: 502, the record FAILED, no consumption, nothing stored under the key |
| Views.SyncConsumeRefusedFails | services/wallet_core/payments/views.py:166-171 | a consumption refused for credit or pool: 409 naming it, the record FAILED, no ledger change, nothing stored |
| Views.SyncSuccess | services/wallet_core/payments/views.py:173-189 | SUCCESS with the reply's reference or "", one consumption, response {id, amount, reference, tx id} stored under the key, the caller's cached profile dropped |
| Views.ConsumeFrame | services/wallet_core/payments/models.py:99-122 | consumption neither reads nor writes withdrawal records |
| Views.SyncWithSettlementService | services/wallet_core/payments/views.py:142-175 | against the settlement stub with the right token, a coverable withdrawal ends SUCCESS with the stub's reference, which reads back as merchant, account prefix and amount |
| Views.SyncAfterGates | services/wallet_core/payments/views.py:128-143 | once the gates pass in sync mode, the request is the synchronous settlement of the new PENDING record |
| Views.SettleSyncPreservesValid | services/wallet_core/payments/views.py:142-175 | the synchronous settlement keeps the invariants |
| Views.CreateWithdrawalPreservesValid | services/wallet_core/payments/views.py:92-189 | every request keeps the invariants |
| Views.StoredIsRemembered | services/wallet_core/payments/views.py:110-114 | whenever a keyed request is answered with a replay, a 202 or a 200, the table holds that response under the key with this request's hash |
| Views.RepeatIsReplayed | services/wallet_core/payments/views.py:106-118 | a keyed request whose response was stored is answered from the table the second time: same body with 200, database and table unchanged |
| Views.TopUpPool | services/wallet_core/payments/views.py:50-60 | accepted exactly when the pool stays non-negative; the pool rises by exactly the amount and nothing else changes |
| Views.TopUpPreservesValid | services/wallet_core/payments/views.py:55-60 | a top-up keeps the invariants and moves pool + ledger debits by exactly the amount |
| Views.TopUpsCompose | services/wallet_core/payments/views.py:55-60 | two non-negative top-ups equal one of their sum |
| Text.IntToString | services/settlement_service/app.py:23 | `str()` of an integer: a '-' exactly for negatives, then digits without leading zeros that read back as the magnitude |
| Text.RemoveAll | services/settlement_service/app.py:23 | `replace('.', '')`: no '.' remains and every other character keeps its count |
| Text.Take | services/settlement_service/app.py:23 | `[:8]`: a prefix of the string, of length 8 when the string is at least that long and the whole string otherwise |
| Text.AfterFirst | services/settlement_service/app.py:20 | `split(' ', 1)[1]`: none exactly when there is no space; otherwise the text after the first space |
| Text.NatToStringInjective | services/settlement_service/app.py:23 | distinct merchant ids render differently |
| Text.DigitsValueOfNatToString | services/settlement_service/app.py:23 | reading back `str(n)` gives n |

## Left out

- **Locking and concurrency.** Row locks, `transaction.atomic` and `select_for_update` are not modelled. Each locked transaction is one atomic step, and concurrent requests are modelled as a sequential order.
- **The lock at tasks.py:19.** The task takes this lock outside any transaction. Django refuses to evaluate such a query on PostgreSQL in autocommit mode. The model reads it as the plain read the code evidently intends.
- **Idempotency-write races.** The race between two writers of one idempotency key (the unique constraint) is not modelled, because requests are sequential.
- **Celery scheduling.** Backoff, jitter and scheduling are not modelled. The retry count is an input, and `Retry`/`GaveUp` end one delivery.
- **HTTP calls and timeouts.** The settlement reply is an input: a transport error, or a status code and a body that is either not JSON or a JSON object with optional "status" and "bank_reference". A non-object JSON body and a null "bank_reference" are not modelled.
- **Undecodable 200 in the task.** It goes to the retry path. This relies on requests raising a `RequestException` subclass from `resp.json()`, which holds from requests 2.27 on.
- **Request hash.** The SHA-256 of `json.dumps(request.data, sort_keys=True)` is the canonical dump itself, i.e. the hash is treated as collision-free.
- **Serializer.** Field validation is abstracted to `amount: Option<int>`.
- **uuid4 values.** They are drawn from a counter in the store, so freshness holds by construction. `str(uuid)` is rendered in decimal digits, which, like a UUID's first eight hex digits, contain no '-'.
- **Decimal range.** Values are unbounded integers of cents. `max_digits=18` is not modelled.
- **Models.MerchantCredit.Available:** it applies `q` only to stored values, which are whole cents. Fractional inputs to `available` are not modelled.
- **SettlementService.WithdrawIn amount:** it is held in cents and rendered as a two-place decimal, which is what the wallet always sends. Other decimal spellings that pydantic would accept ("10", "1e1") are not modelled.
- **Rate-limit counter expiry.** The Redis expiry is not modelled: a bucket never recurs once its window has passed. The Redis key `rl:{key}:{bucket}` is a pair (key, bucket).
- **Rate-limit window.** `RL_WINDOW_SEC` must be positive. With 0 the source divides by zero.
- **Audit log and profile cache.** `_log_request` (views.py:86-90) is not modelled. Nothing guards that write, and it runs after the response's effects (views.py:103, 139, 153, 163, 188). So when it fails, the response becomes a 500 even though those effects stay in place. One way it fails: `ApiRequestLog.actor` holds 80 characters (models.py:75) while a username may hold 150. A failed write at views.py:153 is caught by the handler at line 160, which writes FAILED and logs again. The `me` view and `cache_get`/`cache_set` are not modelled; only the eviction of the caller's cached profile is.
- **Other views and plumbing.** `register`, `admin_approve`, token views, permissions, URLs, admin, settings, scripts and load tests are outside the model. The services they call are modelled.
- **Views.CreateWithdrawal: column widths are not modelled.** These writes raise a database error and give a 500 after `atomic_consume_credit` has committed its own transaction:
  - an Idempotency-Key longer than 80 characters (models.py:65);
  - a bank reference longer than 64 (models.py:85);
  - an audit `actor` longer than 80 (models.py:75).

  So "the ledger changes only with a 200" holds only for keys, references and usernames within those widths.
- **Tasks.Finalize, Tasks.OkConsumesOnce, Tasks.FinalizeRevivesFailed: the 64-character bank reference is not modelled.** In the task, a reply reference longer than 64 characters (models.py:85) makes `wr.save` at tasks.py:66 raise a database error. That save is inside the `transaction.atomic()` block opened at tasks.py:59, so the consumption rolls back with it. The error is not a `RequestException`, so nothing retries it, and the withdrawal stays PENDING or QUEUED with nothing consumed. The model settles such a reply. Its settlement lemmas therefore hold only for references of at most 64 characters.
- **Merchants.CreateMerchant: username normalisation and column widths are not modelled.** `create_user` (services.py:8) applies Django's NFKC `normalize_username` before the unique check. So "ｍ1" is refused beside "m1" in the service, while the model compares raw strings. The registration serializer (serializers.py:5,8) caps no length, so both of these raise a database error and give a 500 instead of a registration:
  - a username longer than 150 characters (`auth_user.username`);
  - a bank account longer than 64 (models.py:18).

  The model accepts both.
- **Staff accounts.** Users created outside registration (`createsuperuser`, scripts) appear only as names already in the store's `users`.
- **No compensation.** When settlement succeeded but consumption then fails, there is no compensating action, and the model invents none.
- **Unhandled consumption errors.** A consumption that fails with a missing credit row or a violated check constraint is an unhandled exception in the view: a 500 with the record left PENDING.

## Findings

| source | as written | input that shows it | evidently intended | confidence | as-written member | corrected member |
|---|---|---|---|---|---|---|
| services/wallet_core/payments/views.py:120-129 | The withdrawal serializer's DecimalField has no lower bound. `WithdrawalRequest.objects.create` does not run the model's `MinValueValidator(0.01)` (models.py:83). So a zero or negative amount reaches `atomic_consume_credit`, whose checks pass for it. | amount "-5.00" from an approved merchant with limit 10.00 and utilized 8.00, pool 0.00: consumption succeeds, utilized becomes 3.00 and the pool 5.00 | amounts below 0.01 are rejected with 400 before any record or settlement | high (not executed) | Views.ValidateAmountAsWritten | Views.ValidateAmount |

The counterexample is `Views.NegativeWithdrawalRaisesPool`. It shows the as-written validation passing -5.00 and the consumption succeeding on a store that satisfies every invariant. `Views.ValidationGap` states exactly where the two validations differ. `Views.CreateWithdrawal` uses the corrected validation. `Views.InvalidAmountRejected` and `Views.CreateWithdrawalPreservesValid` are proved for it: every recorded withdrawal has a positive amount.

=== FILE: merchants.dfy ===
/** Merchant lifecycle (payments/services.py): registration creates the
    user, the merchant, its wallet account and a zero credit line in one
    transaction; approval grants a credit limit. */
module Merchants {
  import opened Results
  import opened Models

  datatype MerchantError =
    | UsernameRequired     // create_user refuses an empty username
    | UsernameTaken        // unique constraint on auth_user.username
    | NoSuchMerchant       // Merchant.DoesNotExist
    | MissingCreditRecord  // the merchant has no credit row
    | LimitRejected        // check constraint mc_utilized_le_limit

  datatype Created = Created(store: Store, merchant: MerchantId)

  /** `create_merchant`: a new user row, then an unapproved merchant with
      the requested credit recorded but not granted, one new wallet account
      and one credit row with limit 0 and nothing utilized. `create_user`
      refuses an empty name, and the unique constraint on `auth_user`
      refuses a name any user already holds, a staff user's included; the
      whole transaction then rolls back. */
  function CreateMerchant(s: Store, username: string, requestedCredit: int, bankAccount: string)
    : (r: Result<Created, MerchantError>)
    ensures r == Err(UsernameRequired) <==> username == ""
    ensures r == Err(UsernameTaken) <==> username != "" && username in s.users
    ensures r.Ok? <==> username != "" && username !in s.users
    ensures r.Ok? ==>
      var s', id := r.value.store, r.value.merchant;
      && s'.merchants == s.merchants[id := Merchant(username, false, requestedCredit, bankAccount, s.nextUuid)]
      && s'.credits == s.credits[id := MerchantCredit(0, 0)]
      && s'.users == s.users + {username}
      && s'.pool == s.pool && s'.ledger == s.ledger && s'.withdrawals == s.withdrawals
      && s.nextUuid < s'.nextUuid && id < s'.nextMerchantId
  {
    if username == "" then Err(UsernameRequired)
    else if username in s.users then Err(UsernameTaken)
    else
      var id, account := s.nextMerchantId, s.nextUuid;
      Ok(Created(
        s.(merchants := s.merchants[id := Merchant(username, false, requestedCredit, bankAccount, account)],
           credits := s.credits[id := MerchantCredit(0, 0)],
           nextMerchantId := id + 1,
           nextUuid := account + 1,
           users := s.users + {username}),
        id))
  }

  /** A registered name cannot be registered a second time, whatever
      credit or bank account the second request asks for. */
  lemma RegisterTwiceRefused(s: Store, username: string, credit1: int, bank1: string, credit2: int, bank2: string)
    requires CreateMerchant(s, username, credit1, bank1).Ok?
    ensures CreateMerchant(CreateMerchant(s, username, credit1, bank1).value.store, username, credit2, bank2)
         == Err(UsernameTaken)
  {
  }

  /** `approve_merchant`: marks the merchant approved and sets its credit
      limit. The code itself does not compare the limit with what is
      already utilized; the check constraint does, and then the whole
      transaction rolls back. */
  function ApproveMerchant(s: Store, id: MerchantId, creditLimit: int): (r: Result<Store, MerchantError>)
    ensures r == Err(NoSuchMerchant) <==> id !in s.merchants
    ensures r == Err(MissingCreditRecord) <==> id in s.merchants && id !in s.credits
    ensures r == Err(LimitRejected) <==>
      id in s.merchants && id in s.credits && !CreditCheck(MerchantCredit(creditLimit, s.credits[id].utilized))
    ensures r.Ok? <==>
      id in s.merchants && id in s.credits && CreditCheck(MerchantCredit(creditLimit, s.credits[id].utilized))
    ensures r.Ok? ==>
      && r.value.merchants == s.merchants[id := s.merchants[id].(approved := true)]
      && r.value.credits == s.credits[id := MerchantCredit(creditLimit, s.credits[id].utilized)]
      && r.value.pool == s.pool && r.value.ledger == s.ledger && r.value.withdrawals == s.withdrawals
      && r.value.users == s.users
  {
    if id !in s.merchants then Err(NoSuchMerchant)
    else if id !in s.credits then Err(MissingCreditRecord)
    else
      var mc := s.credits[id].(creditLimit := creditLimit);
      if !CreditCheck(mc) then Err(LimitRejected)
      else
        Ok(s.(merchants := s.merchants[id := s.merchants[id].(approved := true)],
              credits := s.credits[id := mc]))
  }

  /** Registration keeps every store invariant, and the new merchant's id
      and wallet account are fresh: no existing merchant, ledger row or
      account shares them. */
  lemma CreateMerchantPreservesValid(s: Store, username: string, requestedCredit: int, bankAccount: string)
    requires Valid(s)
    requires CreateMerchant(s, username, requestedCredit, bankAccount).Ok?
    ensures var c := CreateMerchant(s, username, requestedCredit, bankAccount).value;
      && Valid(c.store)
      && c.merchant !in s.merchants
      && c.store.credits.Keys == s.credits.Keys + {c.merchant}
      && (forall m :: m in s.merchants ==> s.merchants[m].account != c.store.merchants[c.merchant].account)
      && Credited(c.store.ledger, c.merchant) == 0
  {
    var c := CreateMerchant(s, username, requestedCredit, bankAccount).value;
    CreditedAbsent(s.ledger, c.merchant);
  }

  /** A merchant with no ledger rows has been credited nothing. */
  lemma {:induction false} CreditedAbsent(l: seq<LedgerEntry>, m: MerchantId)
    requires forall i :: 0 <= i < |l| ==> l[i].merchant != m
    ensures Credited(l, m) == 0
    decreases |l|
  {
    if l != [] {
      CreditedAbsent(l[..|l| - 1], m);
    }
  }

  /** Approval keeps every store invariant. */
  lemma ApprovePreservesValid(s: Store, id: MerchantId, creditLimit: int)
    requires Valid(s)
    requires ApproveMerchant(s, id, creditLimit).Ok?
    ensures Valid(ApproveMerchant(s, id, creditLimit).value)
  {
  }

  /** The requested credit is not granted at registration: until approved,
      every positive consumption by the new merchant is refused for
      merchant credit, whatever was requested. */
  lemma NewMerchantHasNoCredit(s: Store, username: string, requestedCredit: int, bankAccount: string, amount: int)
    requires CreateMerchant(s, username, requestedCredit, bankAccount).Ok?
    requires amount > 0
    ensures var c := CreateMerchant(s, username, requestedCredit, bankAccount).value;
      && !c.store.merchants[c.merchant].approved
      && ConsumeCredit(c.store, c.merchant, c.store.merchants[c.merchant].account, amount)
         == Err(InsufficientMerchantCredit)
  {
  }

  /** After approval with limit L, the merchant's headroom is L minus what
      it already utilized. */
  lemma ApprovalGrantsHeadroom(s: Store, id: MerchantId, creditLimit: int)
    requires ApproveMerchant(s, id, creditLimit).Ok?
    ensures var s' := ApproveMerchant(s, id, creditLimit).value;
      && s'.merchants[id].approved
      && s'.credits[id].Available() == creditLimit - s.credits[id].utilized
      && s'.credits[id].utilized == s.credits[id].utilized
  {
  }
}

=== FILE: models.dfy ===
/** The wallet's persistent records (payments/models.py) and the credit
    consumption protocol `atomic_consume_credit`.

    The database is one immutable `Store` value. Every locked transaction of
    the service (pool row first, then the merchant's credit row) is one
    function from a store to a store: the row locks serialise all
    consumptions through the pool row, so the model applies them one after
    the other. A transaction that raises returns `Err` and the caller keeps
    the store it had, which is the rollback. */
module Models {
  import opened Results
  import Money

  type MerchantId = nat

  /** uuid4 values (wallet account ids, ledger transaction ids) are drawn
      from one counter in the store, so a new one is fresh by construction. */
  type Uuid = nat

  datatype Direction = Debit | Credit

  datatype Source = CreditPoolSource | MerchantCreditSource

  /** An immutable ledger row; rows are only ever created in pairs. */
  datatype LedgerEntry = LedgerEntry(
    txId: Uuid,
    merchant: MerchantId,
    account: Uuid,
    direction: Direction,
    source: Source,
    amount: int)

  datatype Merchant = Merchant(
    username: string,
    approved: bool,
    requestedCredit: int,
    bankAccount: string,
    account: Uuid)

  /** A merchant's credit line, in cents. */
  datatype MerchantCredit = MerchantCredit(creditLimit: int, utilized: int) {

    /** `MerchantCredit.available`: q(limit) - q(utilized). Stored values
        are already cents, where `q` changes nothing, so this is the
        headroom left under the limit. */
    function Available(): (r: int)
      ensures r == creditLimit - utilized
    {
      Money.QuantizeCents(creditLimit);
      Money.QuantizeCents(utilized);
      Money.Quantize(Money.Dec(creditLimit, 2)) - Money.Quantize(Money.Dec(utilized, 2))
    }
  }

  datatype Status = Pending | Queued | Success | Failed

  predicate IsTerminal(st: Status) {
    st == Success || st == Failed
  }

  datatype Withdrawal = Withdrawal(
    merchant: MerchantId,
    account: Uuid,
    amount: int,
    status: Status,
    bankReference: string)

  /** The database: the singleton credit pool, merchants and their credit
      rows, the append-only ledger, withdrawal requests (identified by
      their position), the id sequences, and the user names of every
      `auth_user` row, merchants' and staff users' alike. */
  datatype Store = Store(
    pool: int,
    merchants: map<MerchantId, Merchant>,
    credits: map<MerchantId, MerchantCredit>,
    ledger: seq<LedgerEntry>,
    withdrawals: seq<Withdrawal>,
    nextMerchantId: nat,
    nextUuid: Uuid,
    users: set<string>)

  /** The empty database: `CreditPool.get_solo()` creates the pool at 0.00. */
  function EmptyStore(): Store {
    Store(0, map[], map[], [], [], 1, 1, {})
  }

  datatype ConsumeError =
    | InsufficientMerchantCredit   // ValueError('INSUFFICIENT_MERCHANT_CREDIT')
    | InsufficientPool             // ValueError('INSUFFICIENT_POOL')
    | NoCreditRecord               // MerchantCredit.DoesNotExist
    | CheckViolated                // IntegrityError from a check constraint

  datatype Consumed = Consumed(store: Store, txId: Uuid)

  // ---------------------------------------------------------------------
  // The database check constraints and the ledger's shape

  /** The check constraints of CreditPool and MerchantCredit. */
  predicate PoolCheck(pool: int) {
    pool >= 0
  }

  predicate CreditCheck(c: MerchantCredit) {
    0 <= c.utilized <= c.creditLimit
  }

  /** The two rows one consumption writes, under one transaction id. */
  predicate IsPair(d: LedgerEntry, c: LedgerEntry) {
    && d.txId == c.txId && d.merchant == c.merchant && d.account == c.account && d.amount == c.amount
    && d.direction == Debit && d.source == CreditPoolSource
    && c.direction == Credit && c.source == MerchantCreditSource
  }

  /** The ledger is a sequence of (DEBIT, CREDIT) pairs: no row is unpaired. */
  predicate Paired(l: seq<LedgerEntry>)
    decreases |l|
  {
    if l == [] then true
    else |l| >= 2 && IsPair(l[|l| - 2], l[|l| - 1]) && Paired(l[..|l| - 2])
  }

  /** Two rows share a transaction id only when they are the same pair. */
  ghost predicate TxIdsDistinct(l: seq<LedgerEntry>) {
    forall i, j :: 0 <= i < |l| && 0 <= j < |l| && l[i].txId == l[j].txId ==> i / 2 == j / 2
  }

  /** Contribution of one row to a merchant's credited total. */
  function CreditedBy(e: LedgerEntry, m: MerchantId): int {
    if e.merchant == m && e.direction == Credit && e.source == MerchantCreditSource then e.amount else 0
  }

  /** Sum of the CREDIT/MERCHANT_CREDIT rows of merchant `m`. */
  function Credited(l: seq<LedgerEntry>, m: MerchantId): int {
    if l == [] then 0 else Credited(l[..|l| - 1], m) + CreditedBy(l[|l| - 1], m)
  }

  /** Sum of the DEBIT/CREDIT_POOL rows. */
  function PoolDebited(l: seq<LedgerEntry>): int {
    if l == [] then 0
    else
      var e := l[|l| - 1];
      PoolDebited(l[..|l| - 1]) + (if e.direction == Debit && e.source == CreditPoolSource then e.amount else 0)
  }

  /** Every state the service can reach satisfies this: the database
      constraints hold, every merchant has exactly one credit row and a
      user row, the ledger is well paired with distinct transaction ids,
      and each merchant's utilized amount is exactly what the ledger
      credited it. */
  ghost predicate Valid(s: Store) {
    && PoolCheck(s.pool)
    && (forall m :: m in s.credits ==> CreditCheck(s.credits[m]))
    && s.merchants.Keys == s.credits.Keys
    && (forall m :: m in s.merchants ==> m < s.nextMerchantId && s.merchants[m].account < s.nextUuid)
    && (forall m :: m in s.merchants ==> s.merchants[m].username in s.users)
    && Paired(s.ledger)
    && TxIdsDistinct(s.ledger)
    && (forall i :: 0 <= i < |s.ledger| ==> s.ledger[i].txId < s.nextUuid && s.ledger[i].merchant in s.credits)
    && (forall m :: m in s.credits ==> s.credits[m].utilized == Credited(s.ledger, m))
    && (forall i :: 0 <= i < |s.withdrawals| ==>
          s.withdrawals[i].amount > 0 && s.withdrawals[i].merchant in s.merchants)
  }

  lemma EmptyStoreValid()
    ensures Valid(EmptyStore())
  {
  }

  // ---------------------------------------------------------------------
  // atomic_consume_credit

  /** `atomic_consume_credit(merchant, account, amount)`: the merchant's
      headroom is checked first, then the pool; on success both balances
      move by `amount` and a DEBIT/CREDIT pair is appended under a fresh
      transaction id. A row the check constraints reject aborts the whole
      transaction. */
  function ConsumeCredit(s: Store, m: MerchantId, account: Uuid, amount: int): (r: Result<Consumed, ConsumeError>)
    ensures r == Err(NoCreditRecord) <==> m !in s.credits
    ensures r == Err(InsufficientMerchantCredit) <==>
      m in s.credits && s.credits[m].creditLimit - s.credits[m].utilized < amount
    ensures r == Err(InsufficientPool) <==>
      m in s.credits && s.credits[m].creditLimit - s.credits[m].utilized >= amount && s.pool < amount
    ensures r.Ok? ==>
      var s', c := r.value.store, s.credits[m];
      && s'.pool == s.pool - amount
      && s'.credits == s.credits[m := MerchantCredit(c.creditLimit, c.utilized + amount)]
      && s'.ledger == s.ledger + [
           LedgerEntry(r.value.txId, m, account, Debit, CreditPoolSource, amount),
           LedgerEntry(r.value.txId, m, account, Credit, MerchantCreditSource, amount)]
      && r.value.txId == s.nextUuid < s'.nextUuid
      && s'.merchants == s.merchants && s'.withdrawals == s.withdrawals
      && s'.nextMerchantId == s.nextMerchantId && s'.users == s.users
    ensures r.Ok? ==> PoolCheck(r.value.store.pool) && CreditCheck(r.value.store.credits[m])
  {
    if m !in s.credits then Err(NoCreditRecord)
    else
      var mc := s.credits[m];
      if mc.Available() < amount then Err(InsufficientMerchantCredit)
      else if s.pool < amount then Err(InsufficientPool)
      else
        var mc' := mc.(utilized := Money.Quantize(Money.Dec(mc.utilized, 2)) + amount);
        var pool' := Money.Quantize(Money.Dec(s.pool, 2)) - amount;
        if !(CreditCheck(mc') && PoolCheck(pool')) then Err(CheckViolated)
        else
          var tx := s.nextUuid;
          var pair := [
            LedgerEntry(tx, m, account, Debit, CreditPoolSource, amount),
            LedgerEntry(tx, m, account, Credit, MerchantCreditSource, amount)];
          Ok(Consumed(
            s.(pool := pool', credits := s.credits[m := mc'], ledger := s.ledger + pair, nextUuid := tx + 1),
            tx))
  }

  /** For a positive amount on a valid store the constraints can never be
      what stops a consumption: it succeeds exactly when the merchant's
      headroom and the pool both cover the amount. */
  lemma ConsumePositiveNeverViolatesChecks(s: Store, m: MerchantId, account: Uuid, amount: int)
    requires Valid(s) && amount > 0
    ensures ConsumeCredit(s, m, account, amount).Ok? <==>
      m in s.credits && s.credits[m].creditLimit - s.credits[m].utilized >= amount && s.pool >= amount
  {
  }

  /** When the merchant and the pool are both short, the merchant error
      wins: its check runs first. */
  lemma MerchantCheckFirst(s: Store, m: MerchantId, account: Uuid, amount: int)
    requires m in s.credits
    requires s.credits[m].creditLimit - s.credits[m].utilized < amount && s.pool < amount
    ensures ConsumeCredit(s, m, account, amount) == Err(InsufficientMerchantCredit)
  {
  }

  lemma {:induction false} PairedEven(l: seq<LedgerEntry>)
    requires Paired(l)
    ensures |l| % 2 == 0
    decreases |l|
  {
    if l != [] {
      PairedEven(l[..|l| - 2]);
    }
  }

  lemma PairedAppend(l: seq<LedgerEntry>, d: LedgerEntry, c: LedgerEntry)
    requires Paired(l) && IsPair(d, c)
    ensures Paired(l + [d, c])
  {
    var l' := l + [d, c];
    assert l'[..|l'| - 2] == l;
  }

  lemma CreditedAppendPair(l: seq<LedgerEntry>, d: LedgerEntry, c: LedgerEntry, m: MerchantId)
    requires d.direction == Debit
    ensures Credited(l + [d, c], m) == Credited(l, m) + CreditedBy(c, m)
  {
    var l' := l + [d, c];
    assert l'[..|l'| - 1] == l + [d];
    assert (l + [d])[..|l|] == l;
  }

  lemma PoolDebitedAppendPair(l: seq<LedgerEntry>, d: LedgerEntry, c: LedgerEntry)
    requires IsPair(d, c)
    ensures PoolDebited(l + [d, c]) == PoolDebited(l) + d.amount
  {
    var l' := l + [d, c];
    assert l'[..|l'| - 1] == l + [d];
    assert (l + [d])[..|l|] == l;
  }

  /** Appending a pair under a transaction id larger than every id in an
      even-length ledger keeps the ids distinct between pairs. */
  lemma TxIdsDistinctAppend(l: seq<LedgerEntry>, d: LedgerEntry, c: LedgerEntry)
    requires TxIdsDistinct(l) && |l| % 2 == 0 && d.txId == c.txId
    requires forall i :: 0 <= i < |l| ==> l[i].txId < d.txId
    ensures TxIdsDistinct(l + [d, c])
  {
    var l' := l + [d, c];
    assert forall k :: 0 <= k < |l| ==> l'[k] == l[k];
  }

  /** A successful consumption keeps every reachable-state invariant: the
      check constraints, the pairing of the ledger, distinct transaction
      ids, and each merchant's utilized amount matching its ledger total. */
  lemma ConsumePreservesValid(s: Store, m: MerchantId, account: Uuid, amount: int)
    requires Valid(s)
    requires ConsumeCredit(s, m, account, amount).Ok?
    ensures Valid(ConsumeCredit(s, m, account, amount).value.store)
  {
    var r := ConsumeCredit(s, m, account, amount).value;
    var s', tx := r.store, r.txId;
    var d := LedgerEntry(tx, m, account, Debit, CreditPoolSource, amount);
    var c := LedgerEntry(tx, m, account, Credit, MerchantCreditSource, amount);
    PairedAppend(s.ledger, d, c);
    PairedEven(s.ledger);
    assert s'.ledger == s.ledger + [d, c];
    TxIdsDistinctAppend(s.ledger, d, c);
    AppendPairKeepsBounds(s.ledger, d, c, s.nextUuid, s'.nextUuid, s.credits.Keys);
    UtilizedAfterPair(s.credits, s.ledger, d, c);
  }

  /** Rows appended under a fresh id for a known merchant keep every row's
      id below the counter and its merchant known. */
  lemma AppendPairKeepsBounds(l: seq<LedgerEntry>, d: LedgerEntry, c: LedgerEntry, next: nat, next': nat,
                              known: set<MerchantId>)
    requires forall i :: 0 <= i < |l| ==> l[i].txId < next && l[i].merchant in known
    requires next <= next' && d.txId < next' && c.txId < next' && d.merchant in known && c.merchant in known
    ensures forall i :: 0 <= i < |l + [d, c]| ==> (l + [d, c])[i].txId < next' && (l + [d, c])[i].merchant in known
  {
    assert forall i :: 0 <= i < |l| ==> (l + [d, c])[i] == l[i];
  }

  /** Raising one merchant's utilized amount by the amount of the pair
      appended for it keeps every merchant's utilized equal to its ledger
      total. */
  lemma UtilizedAfterPair(credits: map<MerchantId, MerchantCredit>, l: seq<LedgerEntry>, d: LedgerEntry, c: LedgerEntry)
    requires IsPair(d, c) && d.merchant in credits
    requires forall m :: m in credits ==> credits[m].utilized == Credited(l, m)
    ensures var mc := credits[d.merchant];
      var credits' := credits[d.merchant := MerchantCredit(mc.creditLimit, mc.utilized + c.amount)];
      forall m :: m in credits' ==> credits'[m].utilized == Credited(l + [d, c], m)
  {
    forall m | m in credits
      ensures Credited(l + [d, c], m) == Credited(l, m) + CreditedBy(c, m)
    {
      CreditedAppendPair(l, d, c, m);
    }
  }

  /** Pool conservation: the pool plus everything the ledger debited from
      it is the same before and after a consumption. */
  lemma ConsumeConservesPool(s: Store, m: MerchantId, account: Uuid, amount: int)
    requires ConsumeCredit(s, m, account, amount).Ok?
    ensures var s' := ConsumeCredit(s, m, account, amount).value.store;
      s'.pool + PoolDebited(s'.ledger) == s.pool + PoolDebited(s.ledger)
  {
    var r := ConsumeCredit(s, m, account, amount).value;
    PoolDebitedAppendPair(s.ledger,
      LedgerEntry(r.txId, m, account, Debit, CreditPoolSource, amount),
      LedgerEntry(r.txId, m, account, Credit, MerchantCreditSource, amount));
  }

  /** A consumption's transaction id appears nowhere in the ledger before
      it, so the new pair is the only one carrying it. */
  lemma ConsumeTxIdFresh(s: Store, m: MerchantId, account: Uuid, amount: int)
    requires Valid(s) && ConsumeCredit(s, m, account, amount).Ok?
    ensures var tx := ConsumeCredit(s, m, account, amount).value.txId;
      forall i :: 0 <= i < |s.ledger| ==> s.ledger[i].txId != tx
  {
  }

  // ---------------------------------------------------------------------
  // Sequential fold of repeated consumptions (the concurrent test: all
  // attempts serialise through the pool row lock)

  datatype Batch = Batch(store: Store, successes: nat, errors: seq<ConsumeError>)

  /** `n` consumptions of `amount` by one merchant, one after the other. */
  function ConsumeRepeatedly(s: Store, m: MerchantId, account: Uuid, amount: int, n: nat): Batch
    decreases n
  {
    if n == 0 then Batch(s, 0, [])
    else
      match ConsumeCredit(s, m, account, amount)
      case Ok(c) =>
        var b := ConsumeRepeatedly(c.store, m, account, amount, n - 1);
        Batch(b.store, b.successes + 1, b.errors)
      case Err(e) =>
        var b := ConsumeRepeatedly(s, m, account, amount, n - 1);
        Batch(b.store, b.successes, [e] + b.errors)
  }

  function Min(a: int, b: int): int {
    if a <= b then a else b
  }

  /** Integer division is determined by quotient and remainder. */
  lemma DivUnique(x: int, a: int, q: int, r: int)
    requires a > 0 && x == q * a + r && 0 <= r < a
    ensures x / a == q
  {
    var q', r' := x / a, x % a;
    assert x == q' * a + r';
    assert (q - q') * a == r' - r;
    Money.SmallMultipleIsZero(q - q', a);
  }

  lemma HeadroomStep(h: int, amount: int)
    requires amount > 0 && h >= amount
    ensures (h - amount) / amount == h / amount - 1
  {
    var q, r := h / amount, h % amount;
    assert h == q * amount + r;
    assert h - amount == (q - 1) * amount + r;
    DivUnique(h - amount, amount, q - 1, r);
  }

  /** What `n` serialised attempts leave behind when `k` of them succeed. */
  ghost predicate BatchOutcome(s: Store, m: MerchantId, amount: int, n: nat, k: int, b: Batch)
    requires m in s.credits
  {
    && b.successes == k
    && m in b.store.credits
    && b.store.credits[m].utilized == s.credits[m].utilized + k * amount
    && b.store.credits[m].creditLimit == s.credits[m].creditLimit
    && b.store.pool == s.pool - k * amount
    && |b.errors| == n - k
    && (forall i :: 0 <= i < |b.errors| ==> b.errors[i] == InsufficientMerchantCredit)
  }

  /** Headroom left: the first attempt succeeds and the rest is one
      success fewer from the new store. */
  lemma ConsumeRepeatedlySucceedsFirst(s: Store, m: MerchantId, account: Uuid, amount: int, n: nat, k: int)
    requires m in s.credits && 0 <= s.credits[m].utilized && amount > 0 && n > 0
    requires s.credits[m].creditLimit - s.credits[m].utilized >= amount && s.pool >= amount
    requires var s1 := ConsumeCredit(s, m, account, amount).value.store;
      m in s1.credits && BatchOutcome(s1, m, amount, n - 1, k - 1, ConsumeRepeatedly(s1, m, account, amount, n - 1))
    ensures BatchOutcome(s, m, amount, n, k, ConsumeRepeatedly(s, m, account, amount, n))
  {
    assert k * amount == (k - 1) * amount + amount;
  }

  /** No headroom: the first attempt fails for merchant credit and the
      store is unchanged for the rest. */
  lemma ConsumeRepeatedlyFailsFirst(s: Store, m: MerchantId, account: Uuid, amount: int, n: nat)
    requires m in s.credits && amount > 0 && n > 0
    requires s.credits[m].creditLimit - s.credits[m].utilized < amount
    requires BatchOutcome(s, m, amount, n - 1, 0, ConsumeRepeatedly(s, m, account, amount, n - 1))
    ensures BatchOutcome(s, m, amount, n, 0, ConsumeRepeatedly(s, m, account, amount, n))
  {
    var b := ConsumeRepeatedly(s, m, account, amount, n - 1);
    var errs := [InsufficientMerchantCredit] + b.errors;
    assert forall i :: 0 < i < |errs| ==> errs[i] == b.errors[i - 1];
  }

  /** Quotient facts about the number of amounts that fit in headroom `h`. */
  lemma FitCount(h: int, amount: int)
    requires h >= 0 && amount > 0
    ensures h / amount >= 0
    ensures h >= amount ==> h / amount >= 1 && (h - amount) / amount == h / amount - 1
    ensures h < amount ==> h / amount == 0
  {
    DivUnique(h, amount, h / amount, h % amount);
    if h / amount < 0 {
      Money.MulSign(h / amount, amount);
    }
    if h >= amount {
      HeadroomStep(h, amount);
    } else {
      DivUnique(h, amount, 0, h);
    }
  }

  /** `n` serialised attempts on headroom `L - u` with a pool that covers
      them: exactly min(n, (L - u) / amount) succeed, utilized and pool move
      by that many amounts, and every other attempt is refused for merchant
      credit. */
  lemma {:induction false} ConsumeRepeatedlyCount(s: Store, m: MerchantId, account: Uuid, amount: int, n: nat)
    requires m in s.credits && CreditCheck(s.credits[m]) && amount > 0
    requires s.pool >= Min(n, (s.credits[m].creditLimit - s.credits[m].utilized) / amount) * amount
    ensures BatchOutcome(s, m, amount, n,
      Min(n, (s.credits[m].creditLimit - s.credits[m].utilized) / amount),
      ConsumeRepeatedly(s, m, account, amount, n))
    decreases n, 1
  {
    var h := s.credits[m].creditLimit - s.credits[m].utilized;
    FitCount(h, amount);
    if n > 0 {
      if h >= amount {
        ConsumeRepeatedlyCountWithHeadroom(s, m, account, amount, n);
      } else {
        ConsumeRepeatedlyCount(s, m, account, amount, n - 1);
        ConsumeRepeatedlyFailsFirst(s, m, account, amount, n);
      }
    }
  }

  lemma {:induction false} ConsumeRepeatedlyCountWithHeadroom(s: Store, m: MerchantId, account: Uuid, amount: int, n: nat)
    requires m in s.credits && CreditCheck(s.credits[m]) && amount > 0 && n > 0
    requires s.credits[m].creditLimit - s.credits[m].utilized >= amount
    requires s.pool >= Min(n, (s.credits[m].creditLimit - s.credits[m].utilized) / amount) * amount
    ensures BatchOutcome(s, m, amount, n,
      Min(n, (s.credits[m].creditLimit - s.credits[m].utilized) / amount),
      ConsumeRepeatedly(s, m, account, amount, n))
    decreases n, 0
  {
    var h := s.credits[m].creditLimit - s.credits[m].utilized;
    var k := Min(n, h / amount);
    FitCount(h, amount);
    assert k >= 1;
    assert s.pool >= amount by {
      Money.MulSign(k, amount);
    }
    var s1 := ConsumeCredit(s, m, account, amount).value.store;
    assert s1.credits[m].creditLimit - s1.credits[m].utilized == h - amount;
    var k1 := Min(n - 1, (h - amount) / amount);
    assert k1 == k - 1;
    assert s1.pool >= k1 * amount by {
      assert k * amount == k1 * amount + amount;
    }
    ConsumeRepeatedlyCount(s1, m, account, amount, n - 1);
    ConsumeRepeatedlySucceedsFirst(s, m, account, amount, n, k);
  }

  /** The concurrent-withdrawal scenario: limit 10.00, pool 1000.00, twenty
      attempts of 1.00. Exactly ten succeed, utilized ends at 10.00, the
      pool at 990.00, and the other ten fail for merchant credit. */
  lemma TwentyAttemptsOnTenUnits(s: Store, m: MerchantId, account: Uuid)
    requires m in s.credits
    requires s.credits[m] == MerchantCredit(1000, 0) && s.pool == 100000
    ensures var b := ConsumeRepeatedly(s, m, account, 100, 20);
      && b.successes == 10
      && m in b.store.credits
      && b.store.credits[m].utilized == 1000
      && b.store.pool == 99000
      && b.store.credits[m].creditLimit - b.store.credits[m].utilized >= 0
      && |b.errors| == 10
      && (forall i :: 0 <= i < 10 ==> b.errors[i] == InsufficientMerchantCredit)
  {
    ConsumeRepeatedlyCount(s, m, account, 100, 20);
  }
}

=== FILE: money.dfy ===
/** Monetary amounts. The service stores amounts as decimals with two
    fractional digits; the model stores them as integer cents. The helper
    `q` (payments/models.py) quantizes any decimal to cents, rounding half
    away from zero (Python's ROUND_HALF_UP). */
module Money {
  import Text

  /** A decimal number `unscaled × 10^-scale`, as Python's Decimal holds it
      for a non-positive exponent. */
  datatype Dec = Dec(unscaled: int, scale: nat)

  function Pow10(k: nat): (p: nat)
    ensures p >= 1
  {
    if k == 0 then 1 else 10 * Pow10(k - 1)
  }

  function Abs(x: int): nat {
    if x < 0 then -x else x
  }

  /** `c` is `y / m` rounded to the nearest integer, a tie going to the
      candidate farther from zero. This is the reference definition the
      rounding below is checked against. */
  ghost predicate RoundsHalfAway(y: int, m: int, c: int)
    requires m >= 1
  {
    var e := Abs(y - c * m);
    2 * e < m || (2 * e == m && Abs(c * m) > Abs(y))
  }

  /** Integer arithmetic for `y / m` rounded half away from zero. */
  function RoundHalfAway(y: int, m: int): int
    requires m >= 1
  {
    if y >= 0 then (2 * y + m) / (2 * m) else -((-2 * y + m) / (2 * m))
  }

  /** `c` cents is the value of `d` rounded to the nearest cent, ties away
      from zero: `d.unscaled × 100 / 10^scale` rounded half away. */
  ghost predicate IsCentsRounding(d: Dec, c: int) {
    RoundsHalfAway(d.unscaled * 100, Pow10(d.scale), c)
  }

  /** Python's `q(x)`: `x` quantized to scale 2 with ROUND_HALF_UP, as cents. */
  function Quantize(d: Dec): (r: int)
    ensures IsCentsRounding(d, r)
  {
    if d.scale <= 2 then
      WholeCentsExact(d);
      d.unscaled * Pow10(2 - d.scale)
    else
      RoundToCents(d);
      RoundHalfAway(d.unscaled, Pow10(d.scale - 2))
  }

  lemma MulSign(k: int, m: int)
    requires m >= 1
    ensures k >= 1 ==> k * m >= m
    ensures k <= -1 ==> k * m <= -m
  {
    if k >= 1 {
      assert k * m == (k - 1) * m + m;
    } else if k <= -1 {
      assert k * m == (k + 1) * m - m;
    }
  }

  /** The non-negative half of the rounding: `y / m` rounded half up. */
  lemma RoundNonNegative(y: nat, m: int)
    requires m >= 1
    ensures RoundsHalfAway(y, m, RoundHalfAway(y, m))
    ensures RoundHalfAway(y, m) >= 0
  {
    var t, bigM := 2 * y + m, 2 * m;
    var c := t / bigM;
    var r := t % bigM;
    assert t == c * bigM + r && 0 <= r < bigM;
    assert c * bigM == 2 * (c * m);
    assert 2 * (y - c * m) == r - m;
    if c < 0 {
      MulSign(c, bigM);
    }
    if 2 * (y - c * m) == -m {
      assert c * m > y;
    }
  }

  /** The integer arithmetic meets the reference definition. */
  lemma RoundHalfAwayCorrect(y: int, m: int)
    requires m >= 1
    ensures RoundsHalfAway(y, m, RoundHalfAway(y, m))
  {
    if y >= 0 {
      RoundNonNegative(y, m);
    } else {
      RoundNonNegative(-y, m);
      var c := RoundHalfAway(-y, m);
      assert RoundHalfAway(y, m) == -c;
      assert -c * m == -(c * m);
      assert Abs(y - (-c) * m) == Abs(-y - c * m);
    }
  }

  /** The only multiple of `m` strictly between `-m` and `m` is zero. */
  lemma SmallMultipleIsZero(k: int, m: int)
    requires m >= 1 && -m < k * m < m
    ensures k == 0
  {
    MulSign(k, m);
  }

  /** Two candidates that both meet the reference definition lie less than
      `m` apart: they cannot be the two ties on either side of `y / m`. */
  lemma CandidatesClose(y: int, m: int, c1: int, c2: int)
    requires m >= 1
    requires RoundsHalfAway(y, m, c1) && RoundsHalfAway(y, m, c2)
    ensures Abs((c2 - c1) * m) < m
  {
    var e1, e2 := y - c1 * m, y - c2 * m;
    assert (c2 - c1) * m == e1 - e2;
    assert (c1 + c2) * m == 2 * y - e1 - e2;
    if Abs((c2 - c1) * m) >= m {
      // Both are ties, on opposite sides, so 2|y| < m / 2 and c1 + c2 == 0.
      SmallMultipleIsZero(c1 + c2, m);
      MulSign(c1, m);
    }
  }

  /** At most one integer meets the reference definition. */
  lemma RoundsHalfAwayUnique(y: int, m: int, c1: int, c2: int)
    requires m >= 1
    requires RoundsHalfAway(y, m, c1) && RoundsHalfAway(y, m, c2)
    ensures c1 == c2
  {
    CandidatesClose(y, m, c1, c2);
    SmallMultipleIsZero(c2 - c1, m);
  }

  lemma Pow10Add(a: nat, b: nat)
    ensures Pow10(a + b) == Pow10(a) * Pow10(b)
    decreases a
  {
    if a > 0 {
      Pow10Add(a - 1, b);
      var x, z := Pow10(a - 1), Pow10(b);
      assert Pow10(a + b) == 10 * Pow10(a - 1 + b);
      assert Pow10(a) == 10 * x;
      assert (10 * x) * z == 10 * (x * z);
    }
  }

  /** Rounding `100y / 100m` is rounding `y / m`. */
  lemma RoundsHalfAwayScaled(y: int, m: int, c: int)
    requires m >= 1
    ensures RoundsHalfAway(100 * y, 100 * m, c) <==> RoundsHalfAway(y, m, c)
  {
    assert 100 * y - c * (100 * m) == 100 * (y - c * m);
    assert Abs(100 * (y - c * m)) == 100 * Abs(y - c * m);
    assert Abs(c * (100 * m)) == 100 * Abs(c * m);
    assert Abs(100 * y) == 100 * Abs(y);
  }

  /** At two places or fewer a decimal is already a whole number of
      cents, and scaling it up is exact. */
  lemma WholeCentsExact(d: Dec)
    requires d.scale <= 2
    ensures IsCentsRounding(d, d.unscaled * Pow10(2 - d.scale))
  {
    var D, k := Pow10(d.scale), Pow10(2 - d.scale);
    var c := d.unscaled * k;
    Pow10Add(2 - d.scale, d.scale);
    assert k * D == 100;
    assert d.unscaled * 100 == c * D;
  }

  /** Beyond two places, rounding `u / 10^(scale-2)` is rounding the value
      to cents. */
  lemma RoundToCents(d: Dec)
    requires d.scale > 2
    ensures IsCentsRounding(d, RoundHalfAway(d.unscaled, Pow10(d.scale - 2)))
  {
    var m := Pow10(d.scale - 2);
    Pow10Add(2, d.scale - 2);
    assert Pow10(d.scale) == 100 * m;
    RoundHalfAwayCorrect(d.unscaled, m);
    RoundsHalfAwayScaled(d.unscaled, m, RoundHalfAway(d.unscaled, m));
    assert d.unscaled * 100 == 100 * d.unscaled;
  }

  /** `q` is the only result that rounds to the nearest cent with ties away
      from zero: with `Quantize`'s own contract, both directions of the
      specification. */
  lemma QuantizeIsCentsRounding(d: Dec, c: int)
    ensures IsCentsRounding(d, c) <==> c == Quantize(d)
  {
    if IsCentsRounding(d, c) {
      RoundsHalfAwayUnique(d.unscaled * 100, Pow10(d.scale), c, Quantize(d));
    }
  }

  /** An amount that is already whole cents is returned unchanged. */
  lemma QuantizeCents(c: int)
    ensures Quantize(Dec(c, 2)) == c
  {
  }

  /** Worked cases of ROUND_HALF_UP: 1.005 -> 1.01, 1.0049 -> 1.00,
      -1.005 -> -1.01. */
  lemma QuantizeExamples()
    ensures Quantize(Dec(1005, 3)) == 101
    ensures Quantize(Dec(10049, 4)) == 100
    ensures Quantize(Dec(-1005, 3)) == -101
  {
  }

  /** `q` is symmetric about zero (ROUND_HALF_UP rounds magnitudes). */
  lemma QuantizeNegate(d: Dec)
    ensures Quantize(Dec(-d.unscaled, d.scale)) == -Quantize(d)
  {
    var n := Dec(-d.unscaled, d.scale);
    assert n.unscaled * 100 == -(d.unscaled * 100);
    RoundsHalfAwayNegate(d.unscaled * 100, Pow10(d.scale), Quantize(d));
    QuantizeIsCentsRounding(n, -Quantize(d));
  }

  /** The reference rounding is symmetric about zero. */
  lemma RoundsHalfAwayNegate(y: int, m: int, c: int)
    requires m >= 1
    ensures RoundsHalfAway(-y, m, -c) <==> RoundsHalfAway(y, m, c)
  {
    assert -y - (-c) * m == -(y - c * m);
    assert (-c) * m == -(c * m);
  }

  /** Python's `str()` of a Decimal held at two places, e.g. "-12.05": the
      form in which amounts are sent to the settlement service. */
  function CentsToText(c: int): (t: string)
    ensures |t| >= 4 && t[|t| - 3] == '.' && Text.AllDigits(t[|t| - 2..])
    ensures c < 0 <==> t[0] == '-'
    ensures var w := t[(if c < 0 then 1 else 0)..|t| - 3];
      && Text.AllDigits(w) && 1 <= |w| && (1 < |w| ==> w[0] != '0')
      && Text.DigitsValue(w) == Abs(c) / 100
    ensures Text.DigitsValue(t[|t| - 2..]) == Abs(c) % 100
  {
    var a := Abs(c);
    var sign: string := if c < 0 then "-" else "";
    var whole, cents := Text.NatToString(a / 100), CentDigits(a);
    var t := sign + (whole + ("." + cents));
    assert t[|sign|..|t| - 3] == whole;
    assert t[|t| - 2..] == cents;
    Text.DigitsValueOfNatToString(a / 100);
    CentDigitsOwnValue(a);
    t
  }

  /** The two fractional digits read back as `a` modulo 100. */
  lemma CentDigitsOwnValue(a: nat)
    ensures Text.DigitsValue(CentDigits(a)) == a % 100
  {
    var s := CentDigits(a);
    assert s[..1] == [s[0]] && s[..1][..0] == [];
    assert Text.DigitsValue(s[..1]) == Text.DigitValue(s[0]) == a % 100 / 10;
    assert Text.DigitsValue(s) == Text.DigitsValue(s[..1]) * 10 + Text.DigitValue(s[1]);
    assert a % 100 == a % 100 / 10 * 10 + a % 100 % 10;
    assert a % 100 % 10 == a % 10;
  }

  /** The two fractional digits of `a` cents. */
  function CentDigits(a: nat): (s: string)
    ensures |s| == 2 && Text.AllDigits(s)
  {
    [Text.DigitChar(a % 100 / 10), Text.DigitChar(a % 10)]
  }

  /** The whole part followed by the two fractional digits spells `a`. */
  lemma CentDigitsValue(a: nat)
    ensures Text.AllDigits(Text.NatToString(a / 100) + CentDigits(a))
    ensures Text.DigitsValue(Text.NatToString(a / 100) + CentDigits(a)) == a
  {
    var whole, cents := Text.NatToString(a / 100), CentDigits(a);
    var digits := whole + cents;
    assert digits[..|digits| - 1] == whole + [cents[0]];
    assert (whole + [cents[0]])[..|whole|] == whole;
    Text.DigitsValueOfNatToString(a / 100);
    assert Text.DigitsValue(digits) == (a / 100 * 10 + a % 100 / 10) * 10 + a % 10;
    assert a == a / 100 * 100 + a % 100;
    assert a % 100 == a % 100 / 10 * 10 + a % 100 % 10;
    assert a % 100 % 10 == a % 10;
  }

  /** Dropping the decimal point from the rendering of `c` cents leaves an
      optional sign and a digit string whose value is |c|: the amount in
      cents. */
  lemma CentsTextWithoutPoint(c: int)
    ensures var r := Text.RemoveAll(CentsToText(c), '.');
      var digits := if c < 0 then r[1..] else r;
      && 1 <= |r|
      && (c < 0 <==> r[0] == '-')
      && Text.AllDigits(digits)
      && Text.DigitsValue(digits) == Abs(c)
  {
    var a := Abs(c);
    var sign: string := if c < 0 then "-" else "";
    var whole, cents := Text.NatToString(a / 100), CentDigits(a);
    Text.RemoveAllConcat(sign, whole + ("." + cents), '.');
    Text.RemoveAllConcat(whole, "." + cents, '.');
    Text.RemoveAllConcat(".", cents, '.');
    Text.RemoveAllAbsent(sign, '.');
    Text.RemoveAllAbsent(whole, '.');
    Text.RemoveAllAbsent(cents, '.');
    assert Text.RemoveAll(".", '.') == "";
    var r := sign + (whole + cents);
    assert Text.RemoveAll(CentsToText(c), '.') == r;
    CentDigitsValue(a);
    if c < 0 {
      assert r[1..] == whole + cents;
    } else {
      assert r == whole + cents;
    }
  }
}

=== FILE: ratelimit.dfy ===
/** Fixed-window rate limiting (`rate_limit_allow`, payments/utils/cache.py).

    Redis holds one counter per (key, window bucket). A call increments the
    counter of the bucket `now` falls in and is admitted when the count
    after the increment is at most `maxRequests`. The clock is a parameter.
    The expiry set on each counter (window + 2 seconds after its last
    increment) is not modelled: a bucket number never recurs once its
    window has passed, so the expiry only reclaims memory. */
module RateLimit {

  type Counters = map<(string, int), nat>

  datatype Decision = Decision(counters: Counters, allowed: bool, remaining: nat)

  /** Python's `now // window`; for a positive divisor Dafny's division
      rounds the same way (towards minus infinity). */
  function Bucket(now: int, window: int): (b: int)
    requires window > 0
    ensures b * window <= now < b * window + window
  {
    now / window
  }

  /** The current count of a (key, bucket) counter; an absent key reads 0,
      as Redis INCR treats it. */
  function Count(c: Counters, key: string, bucket: int): nat {
    if (key, bucket) in c then c[(key, bucket)] else 0
  }

  /** `rate_limit_allow(key, maxRequests, window)` at time `now`. */
  function Allow(c: Counters, key: string, maxRequests: int, window: int, now: int): (d: Decision)
    requires window > 0
    ensures var b := Bucket(now, window);
      && Count(d.counters, key, b) == Count(c, key, b) + 1
      && d.counters.Keys == c.Keys + {(key, b)}
      && (forall k :: k in c && k != (key, b) ==> d.counters[k] == c[k])
    ensures d.allowed <==> Count(d.counters, key, Bucket(now, window)) <= maxRequests
    ensures d.remaining + Count(d.counters, key, Bucket(now, window)) == maxRequests
         || (d.remaining == 0 && Count(d.counters, key, Bucket(now, window)) >= maxRequests)
    ensures !d.allowed ==> d.remaining == 0
  {
    var bucket := Bucket(now, window);
    var count := Count(c, key, bucket) + 1;
    var remaining := if maxRequests - count > 0 then maxRequests - count else 0;
    Decision(c[(key, bucket) := count], count <= maxRequests, remaining)
  }

  /** Two instants share a counter exactly when they fall in the same
      window [b * window, (b + 1) * window). */
  lemma SameBucketIffSameWindow(now1: int, now2: int, window: int)
    requires window > 0
    ensures Bucket(now1, window) == Bucket(now2, window) <==>
      Bucket(now1, window) * window <= now2 < Bucket(now1, window) * window + window
  {
    var b1, b2 := Bucket(now1, window), Bucket(now2, window);
    if b1 != b2 && b1 * window <= now2 < b1 * window + window {
      assert (b2 - b1) * window == b2 * window - b1 * window;
      if b2 > b1 {
        MulAtLeast(b2 - b1, window);
      } else {
        MulAtLeast(b1 - b2, window);
      }
    }
  }

  lemma MulAtLeast(k: int, m: int)
    requires k >= 1 && m >= 1
    ensures k * m >= m
  {
    assert k * m == (k - 1) * m + m;
  }

  /** A sequence of calls at the given instants, each seeing the counters
      the previous one left; the verdicts in call order. */
  function Run(c: Counters, key: string, maxRequests: int, window: int, times: seq<int>): (r: (Counters, seq<bool>))
    requires window > 0
    ensures |r.1| == |times|
    decreases |times|
  {
    if times == [] then (c, [])
    else
      var d := Allow(c, key, maxRequests, window, times[0]);
      var rest := Run(d.counters, key, maxRequests, window, times[1..]);
      (rest.0, [d.allowed] + rest.1)
  }

  /** Calls that all fall in one bucket whose counter starts at `k`: the
      i-th of them (from 0) is admitted exactly when k + i + 1 is at most
      the limit, and the counter ends at k plus the number of calls. */
  lemma {:induction false} RunInOneBucket(c: Counters, key: string, maxRequests: int, window: int, times: seq<int>, b: int)
    requires window > 0
    requires forall i :: 0 <= i < |times| ==> Bucket(times[i], window) == b
    ensures var r := Run(c, key, maxRequests, window, times);
      && (forall i :: 0 <= i < |times| ==> (r.1[i] <==> Count(c, key, b) + i + 1 <= maxRequests))
      && Count(r.0, key, b) == Count(c, key, b) + |times|
    decreases |times|
  {
    if times != [] {
      var d := Allow(c, key, maxRequests, window, times[0]);
      RunInOneBucket(d.counters, key, maxRequests, window, times[1..], b);
      var r := Run(c, key, maxRequests, window, times);
      var rest := Run(d.counters, key, maxRequests, window, times[1..]);
      assert forall i :: 1 <= i < |times| ==> r.1[i] == rest.1[i - 1];
    }
  }

  /** From a bucket nobody has used yet, the first `maxRequests` calls are
      admitted and every later one in the same bucket is denied. */
  lemma FreshBucketAdmitsExactlyMax(c: Counters, key: string, maxRequests: int, window: int, times: seq<int>, b: int)
    requires window > 0
    requires (key, b) !in c
    requires forall i :: 0 <= i < |times| ==> Bucket(times[i], window) == b
    ensures var r := Run(c, key, maxRequests, window, times);
      forall i :: 0 <= i < |times| ==> (r.1[i] <==> i < maxRequests)
  {
    RunInOneBucket(c, key, maxRequests, window, times, b);
  }

  /** Fixed, not sliding: the first call that lands in a bucket no call
      used before counts 1, however many calls the previous bucket saw. */
  lemma NewWindowStartsAtOne(c: Counters, key: string, maxRequests: int, window: int, now: int)
    requires window > 0
    requires (key, Bucket(now, window)) !in c
    ensures var d := Allow(c, key, maxRequests, window, now);
      && Count(d.counters, key, Bucket(now, window)) == 1
      && (d.allowed <==> maxRequests >= 1)
  {
  }

  /** Limit 5, window 60: six calls within one window admit the first five
      and deny the sixth. */
  lemma SixCallsLimitFive(c: Counters, key: string)
    requires (key, 1) !in c
    ensures Run(c, key, 5, 60, [60, 61, 62, 63, 64, 65]).1 == [true, true, true, true, true, false]
  {
    FreshBucketAdmitsExactlyMax(c, key, 5, 60, [60, 61, 62, 63, 64, 65], 1);
  }

  /** The accepted cost of a fixed window: up to `maxRequests` calls at
      the end of one window followed by up to `maxRequests` at the start of
      the next are all admitted, however close together they are. */
  lemma BoundaryBurstAdmitted(c: Counters, key: string, maxRequests: int, window: int,
                              first: seq<int>, second: seq<int>, b: int)
    requires window > 0 && (key, b) !in c && (key, b + 1) !in c
    requires |first| <= maxRequests && |second| <= maxRequests
    requires forall i :: 0 <= i < |first| ==> Bucket(first[i], window) == b
    requires forall i :: 0 <= i < |second| ==> Bucket(second[i], window) == b + 1
    ensures var r := Run(c, key, maxRequests, window, first + second);
      forall i :: 0 <= i < |r.1| ==> r.1[i]
  {
    var r1 := Run(c, key, maxRequests, window, first);
    var r2 := Run(r1.0, key, maxRequests, window, second);
    FreshBucketAdmitsExactlyMax(c, key, maxRequests, window, first, b);
    RunOtherBucketsUntouched(c, key, maxRequests, window, first, b, b + 1);
    FreshBucketAdmitsExactlyMax(r1.0, key, maxRequests, window, second, b + 1);
    RunConcat(c, key, maxRequests, window, first, second);
  }

  /** With limit 5 and window 60, ten calls within two seconds (five at
      59s, five at 60s) are all admitted. */
  lemma BoundaryBurstAdmitsTwiceTheLimit(c: Counters, key: string)
    requires (key, 0) !in c && (key, 1) !in c
    ensures var r := Run(c, key, 5, 60, [59, 59, 59, 59, 59] + [60, 60, 60, 60, 60]);
      |r.1| == 10 && forall i :: 0 <= i < 10 ==> r.1[i]
  {
    var first, second := [59, 59, 59, 59, 59], [60, 60, 60, 60, 60];
    assert forall i :: 0 <= i < |first| ==> Bucket(first[i], 60) == 0;
    assert forall i :: 0 <= i < |second| ==> Bucket(second[i], 60) == 1;
    BoundaryBurstAdmitted(c, key, 5, 60, first, second, 0);
  }

  /** Running two call sequences back to back is running their
      concatenation. */
  lemma {:induction false} RunConcat(c: Counters, key: string, maxRequests: int, window: int, t1: seq<int>, t2: seq<int>)
    requires window > 0
    ensures var r1 := Run(c, key, maxRequests, window, t1);
      var r2 := Run(r1.0, key, maxRequests, window, t2);
      Run(c, key, maxRequests, window, t1 + t2) == (r2.0, r1.1 + r2.1)
    decreases |t1|
  {
    if t1 == [] {
      assert t1 + t2 == t2;
      var r2 := Run(c, key, maxRequests, window, t2);
      assert [] + r2.1 == r2.1;
    } else {
      var d := Allow(c, key, maxRequests, window, t1[0]);
      var r1 := Run(d.counters, key, maxRequests, window, t1[1..]);
      var r2 := Run(r1.0, key, maxRequests, window, t2);
      RunOfConcatCons(c, key, maxRequests, window, t1, t2);
      RunConcat(d.counters, key, maxRequests, window, t1[1..], t2);
      assert [d.allowed] + (r1.1 + r2.1) == ([d.allowed] + r1.1) + r2.1;
    }
  }

  /** The first call of `t1 + t2` is the first call of `t1`. */
  lemma RunOfConcatCons(c: Counters, key: string, maxRequests: int, window: int, t1: seq<int>, t2: seq<int>)
    requires window > 0 && t1 != []
    ensures var d := Allow(c, key, maxRequests, window, t1[0]);
      var whole := Run(d.counters, key, maxRequests, window, t1[1..] + t2);
      Run(c, key, maxRequests, window, t1 + t2) == (whole.0, [d.allowed] + whole.1)
  {
    assert (t1 + t2)[0] == t1[0];
    assert (t1 + t2)[1..] == t1[1..] + t2;
  }

  /** Calls confined to bucket `b` leave an unused bucket `other` unused. */
  lemma {:induction false} RunOtherBucketsUntouched(c: Counters, key: string, maxRequests: int, window: int, times: seq<int>, b: int, other: int)
    requires window > 0 && b != other
    requires forall i :: 0 <= i < |times| ==> Bucket(times[i], window) == b
    requires (key, other) !in c
    ensures (key, other) !in Run(c, key, maxRequests, window, times).0
    decreases |times|
  {
    if times != [] {
      var d := Allow(c, key, maxRequests, window, times[0]);
      RunOtherBucketsUntouched(d.counters, key, maxRequests, window, times[1..], b, other);
    }
  }
}

=== FILE: results.dfy ===
/** Failure-carrying datatypes shared by every module of the wallet model:
    an exception raised by the service becomes an `Err` value here. */
module Results {

  datatype Option<+T> = None | Some(value: T) {

    /** The value carried by Some, or `default` when None. */
    function GetOr(default: T): T {
      match this
      case Some(v) => v
      case None => default
    }
  }

  datatype Result<+T, +E> = Ok(value: T) | Err(error: E) {

    predicate IsFailure() {
      Err?
    }

    function PropagateFailure<U>(): Result<U, E>
      requires Err?
    {
      Err(error)
    }

    function Extract(): T
      requires Ok?
    {
      value
    }
  }
}

=== FILE: settlement.dfy ===
/** The settlement service (services/settlement_service/app.py): a stub of
    the bank that authenticates the wallet by a shared bearer token and
    answers every authenticated request with SUCCESS and a bank reference
    derived from the request alone. */
module SettlementService {
  import opened Results
  import Text
  import Money

  /** The request body `WithdrawIn`. The amount is declared with two
      decimal places and the wallet always sends `str()` of a two-place
      decimal, so it is held in cents and rendered back with
      `Money.CentsToText`. */
  datatype WithdrawIn = WithdrawIn(
    merchantId: int,
    accountId: string,
    amount: int,
    bankAccount: Option<string>)

  /** The endpoint's three outcomes: 401, 403, or 200 with a JSON body. */
  datatype Reply =
    | Unauthorized
    | Forbidden
    | Settled(status: string, bankReference: string)

  const BearerPrefix: string := "Bearer "

  const ReferencePrefix: string := "BNK-"

  /** `BNK-{merchant_id}-{account_id[:8]}-{amount without '.'}`. */
  function BankReference(p: WithdrawIn): (r: string)
    ensures ReferencePrefix + Text.IntToString(p.merchantId) + "-" <= r
    ensures |r| <= |ReferencePrefix| + |Text.IntToString(p.merchantId)| + 10 + |Money.CentsToText(p.amount)|
  {
    ReferencePrefix + Text.IntToString(p.merchantId) + "-" + Text.Take(p.accountId, 8)
      + "-" + Text.RemoveAll(Money.CentsToText(p.amount), '.')
  }

  /** `settlement_withdraw`: a missing header, or one that does not start
      with "Bearer ", is refused with 401 before the token is looked at;
      the token is the text after the first space and a mismatch is 403;
      anything else settles. */
  function Withdraw(internalToken: string, authorization: Option<string>, p: WithdrawIn): (r: Reply)
    ensures r == Unauthorized <==> authorization.None? || !(BearerPrefix <= authorization.value)
    ensures r == Forbidden <==>
      && authorization.Some? && BearerPrefix <= authorization.value
      && authorization.value[|BearerPrefix|..] != internalToken
    ensures r.Settled? ==> r.status == "SUCCESS" && r.bankReference == BankReference(p)
  {
    if authorization.None? || !(BearerPrefix <= authorization.value) then Unauthorized
    else
      var header := authorization.value;
      Text.AfterFirstOfPrefix(header, BearerPrefix, ' ');
      var token := Text.AfterFirst(header, ' ').value;
      if token != internalToken then Forbidden
      else Settled("SUCCESS", BankReference(p))
  }

  /** The header the wallet sends, "Bearer " + token, is accepted exactly
      when the token is the service's own. */
  lemma BearerHeaderAccepted(internalToken: string, token: string, p: WithdrawIn)
    ensures Withdraw(internalToken, Some(BearerPrefix + token), p).Settled? <==> token == internalToken
  {
    assert (BearerPrefix + token)[|BearerPrefix|..] == token;
  }

  /** What the wallet receives when it presents the right token: a 200
      whose JSON says SUCCESS and carries the request's reference. */
  lemma SettledOnTheWire(internalToken: string, p: WithdrawIn)
    ensures OnTheWire(Withdraw(internalToken, Some(BearerPrefix + internalToken), p))
         == Http(200, Json(Some("SUCCESS"), Some(BankReference(p))))
  {
    BearerHeaderAccepted(internalToken, internalToken, p);
  }

  /** The settled reply depends on the request only: the bank account is
      not part of the reference, and the token only decides whether there
      is a reference at all. */
  lemma ReferenceIgnoresBankAccount(internalToken: string, p: WithdrawIn, bankAccount: Option<string>)
    requires Withdraw(internalToken, Some(BearerPrefix + internalToken), p).Settled?
    ensures Withdraw(internalToken, Some(BearerPrefix + internalToken), p.(bankAccount := bankAccount))
         == Withdraw(internalToken, Some(BearerPrefix + internalToken), p)
  {
    BearerHeaderAccepted(internalToken, internalToken, p.(bankAccount := bankAccount));
  }

  // ---------------------------------------------------------------------
  // Reading a reference back

  datatype ReferenceParts = ReferenceParts(merchantId: nat, account: string, amountCents: nat)

  /** Splits "BNK-<digits>-<account>-<digits>" at the first '-' after the
      prefix and at the last '-'. */
  function ParseReference(ref: string): Option<ReferenceParts> {
    if !(ReferencePrefix <= ref) then None
    else
      var rest := ref[|ReferencePrefix|..];
      match Text.FirstIndexOf(rest, '-')
      case None => None
      case Some(i) =>
        var id := rest[..i];
        if id == [] || !Text.AllDigits(id) then None
        else
          match ParseAccountAmount(rest[i + 1..])
          case None => None
          case Some(parts) => Some(ReferenceParts(Text.DigitsValue(id), parts.0, parts.1))
  }

  /** "<account>-<digits>", split at the last '-'. */
  function ParseAccountAmount(tail: string): Option<(string, nat)> {
    match Text.LastIndexOf(tail, '-')
    case None => None
    case Some(j) =>
      var amount := tail[j + 1..];
      if amount == [] || !Text.AllDigits(amount) then None
      else Some((tail[..j], Text.DigitsValue(amount)))
  }

  /** A digit string holds no '-'. */
  lemma NoDashInDigits(s: string)
    requires Text.AllDigits(s)
    ensures '-' !in s
  {
  }

  lemma ParseAccountAmountOfParts(a: string, d: string)
    requires d != [] && Text.AllDigits(d) && '-' !in a
    ensures ParseAccountAmount(a + ['-'] + d) == Some((a, Text.DigitsValue(d)))
  {
    NoDashInDigits(d);
    var tail := a + ['-'] + d;
    Text.LastIndexOfSplit(a, '-', d);
    assert tail[..|a|] == a;
    assert tail[|a| + 1..] == d;
  }

  /** The parser takes apart what the reference format puts together. */
  lemma ParseOfParts(n: string, a: string, d: string)
    requires n != [] && Text.AllDigits(n) && d != [] && Text.AllDigits(d) && '-' !in a
    ensures ParseReference(ReferencePrefix + (n + ['-'] + (a + ['-'] + d)))
         == Some(ReferenceParts(Text.DigitsValue(n), a, Text.DigitsValue(d)))
  {
    NoDashInDigits(n);
    var tail := a + ['-'] + d;
    var ref := ReferencePrefix + (n + ['-'] + tail);
    var rest := ref[|ReferencePrefix|..];
    assert rest == n + ['-'] + tail;
    Text.FirstIndexOfSplit(n, '-', tail);
    assert rest[..|n|] == n;
    assert rest[|n| + 1..] == tail;
    ParseAccountAmountOfParts(a, d);
  }

  /** For the requests the wallet sends (a non-negative merchant id and
      amount, an account id whose first eight characters hold no '-'), the
      reference spells the merchant, the account prefix and the amount in
      cents, and they can be read back from it. */
  lemma ReferenceRoundTrip(p: WithdrawIn)
    requires p.merchantId >= 0 && p.amount >= 0 && '-' !in Text.Take(p.accountId, 8)
    ensures ParseReference(BankReference(p))
         == Some(ReferenceParts(p.merchantId, Text.Take(p.accountId, 8), p.amount))
  {
    var n := Text.NatToString(p.merchantId);
    var a := Text.Take(p.accountId, 8);
    var d := Text.RemoveAll(Money.CentsToText(p.amount), '.');
    assert n != [] && Text.AllDigits(n) && Text.DigitsValue(n) == p.merchantId by {
      Text.DigitsValueOfNatToString(p.merchantId);
    }
    assert d != [] && Text.AllDigits(d) && Text.DigitsValue(d) == p.amount by {
      Money.CentsTextWithoutPoint(p.amount);
    }
    assert BankReference(p) == ReferencePrefix + (n + ['-'] + (a + ['-'] + d));
    ParseOfParts(n, a, d);
  }

  /** Two such requests with the same reference agree on merchant, account
      prefix and amount: the reference identifies the withdrawal's payee
      and sum. */
  lemma ReferenceDeterminesRequest(p1: WithdrawIn, p2: WithdrawIn)
    requires p1.merchantId >= 0 && p1.amount >= 0 && '-' !in Text.Take(p1.accountId, 8)
    requires p2.merchantId >= 0 && p2.amount >= 0 && '-' !in Text.Take(p2.accountId, 8)
    ensures BankReference(p1) == BankReference(p2) <==>
      && p1.merchantId == p2.merchantId
      && Text.Take(p1.accountId, 8) == Text.Take(p2.accountId, 8)
      && p1.amount == p2.amount
  {
    ReferenceRoundTrip(p1);
    ReferenceRoundTrip(p2);
  }

  /** The account part is at most eight characters, and an id of eight or
      fewer characters is used whole; the amount part carries no '.'. */
  lemma ReferenceParts8(p: WithdrawIn)
    ensures var n := ReferencePrefix + Text.IntToString(p.merchantId) + "-";
      var ref := BankReference(p);
      && n <= ref
      && |ref| <= |n| + 8 + 1 + |Money.CentsToText(p.amount)|
      && (|p.accountId| <= 8 ==> ref[|n|..|n| + |p.accountId|] == p.accountId)
      && '.' !in ref[|n| + |Text.Take(p.accountId, 8)| + 1..]
  {
    var n := ReferencePrefix + Text.IntToString(p.merchantId) + "-";
    var a := Text.Take(p.accountId, 8);
    var d := Text.RemoveAll(Money.CentsToText(p.amount), '.');
    var ref := BankReference(p);
    assert ref == n + a + "-" + d;
    assert ref[|n|..|n| + |a|] == a;
    assert ref[|n| + |a| + 1..] == d;
  }

  // ---------------------------------------------------------------------
  // The endpoint as the wallet's HTTP client sees it

  /** A response body: not JSON at all, or a JSON object whose "status" and
      "bank_reference" keys may be absent. */
  datatype Body = NotJson | Json(status: Option<string>, bankReference: Option<string>)

  /** The outcome of one POST: no response (connection error, timeout), or
      a status code and a body. */
  datatype HttpReply = TransportError | Http(code: int, body: Body)

  /** FastAPI's rendering of the three outcomes; an HTTPException becomes
      a JSON body holding only "detail". */
  function OnTheWire(r: Reply): (h: HttpReply)
    ensures h.Http? && (h.code == 200 <==> r.Settled?)
    ensures h.code == 401 <==> r == Unauthorized
    ensures h.code == 403 <==> r == Forbidden
    ensures h.body.Json?
    ensures r.Settled? <==> h.body.status.Some?
    ensures r.Settled? ==> h.body == Json(Some(r.status), Some(r.bankReference))
  {
    match r
    case Unauthorized => Http(401, Json(None, None))
    case Forbidden => Http(403, Json(None, None))
    case Settled(status, ref) => Http(200, Json(Some(status), Some(ref)))
  }
}

=== FILE: tasks.dfy ===
/** The asynchronous settlement task `dispatch_settlement`
    (payments/tasks.py). One delivery of the task is one function of the
    store, the withdrawal id, the number of retries Celery has already made
    and the settlement service's reply; the scheduler's backoff and jitter
    are not modelled, a `Retry` outcome stands for "Celery delivers the
    task again later". */
module Tasks {
  import opened Results
  import opened Models
  import Text
  import SettlementService

  /** The bound the exhausted-retries guard compares
      `self.request.retries` with: the task's `max_retries` attribute,
      which keeps Celery's default of 3. The decorator's
      `retry_kwargs={'max_retries': 5}` is handed only to the automatic
      `self.retry` call, so Celery redelivers the task up to
      `RetryBudget` times although the handler gives up after
      `MaxRetries`. */
  const MaxRetries: nat := 3
  const RetryBudget: nat := 5

  /** How one delivery ends. */
  datatype Outcome =
    | Missing                                            // WithdrawalRequest.DoesNotExist
    | AlreadyFinal(status: Status, bankReference: string) // entry guard
    | Retry                                              // RequestException re-raised
    | GaveUp                                             // retries exhausted: FAILED, re-raised
    | Rejected(code: int)                                // non-200 below 500: FAILED
    | Settled(bankReference: string)                     // consumed, SUCCESS
    | AlreadySettled(bankReference: string)              // guard at the locked re-read
    | ConsumeFailed(error: ConsumeError)                 // consumption raised: rolled back

  datatype Step = Step(store: Store, outcome: Outcome)

  /** `str(account.id)`. Account ids are counter values in this model and
      are rendered in decimal, which, like a UUID's first eight hex digits,
      holds no '-'. */
  function AccountText(account: Uuid): (t: string)
    ensures 1 <= |t| && '-' !in t
  {
    Text.NatToString(account)
  }

  /** The JSON body both the task and the synchronous view post. */
  function SettlementRequest(s: Store, w: Withdrawal): (p: SettlementService.WithdrawIn)
    ensures p.merchantId == w.merchant && p.amount == w.amount
    ensures p.accountId == AccountText(w.account) && '-' !in Text.Take(p.accountId, 8)
  {
    var t := AccountText(w.account);
    assert Text.Take(t, 8) == t[..|Text.Take(t, 8)|];
    assert forall i :: 0 <= i < |Text.Take(t, 8)| ==> Text.Take(t, 8)[i] == t[i];
    SettlementService.WithdrawIn(
      w.merchant, AccountText(w.account), w.amount,
      if w.merchant in s.merchants then Some(s.merchants[w.merchant].bankAccount) else None)
  }

  /** Replies the task answers by re-raising a RequestException: no
      response, a 5xx, or a 200 whose body `resp.json()` cannot decode
      (requests raises its JSONDecodeError, a RequestException). */
  predicate Transient(reply: SettlementService.HttpReply) {
    reply.TransportError? || reply.code >= 500 || (reply.code == 200 && reply.body.NotJson?)
  }

  /** The store with withdrawal `wid` given a new status. */
  function SetStatus(s: Store, wid: nat, st: Status): (s': Store)
    requires wid < |s.withdrawals|
    ensures |s'.withdrawals| == |s.withdrawals| && s'.withdrawals[wid].status == st
    ensures s'.withdrawals[wid].amount == s.withdrawals[wid].amount
    ensures s'.withdrawals[wid].merchant == s.withdrawals[wid].merchant
    ensures s'.withdrawals[wid].bankReference == s.withdrawals[wid].bankReference
    ensures forall i :: 0 <= i < |s.withdrawals| && i != wid ==> s'.withdrawals[i] == s.withdrawals[i]
    ensures s'.(withdrawals := s.withdrawals) == s
  {
    s.(withdrawals := s.withdrawals[wid := s.withdrawals[wid].(status := st)])
  }

  /** A status change keeps the store invariants. */
  lemma SetStatusPreservesValid(s: Store, wid: nat, st: Status)
    requires Valid(s) && wid < |s.withdrawals|
    ensures Valid(SetStatus(s, wid, st))
  {
    var s' := SetStatus(s, wid, st);
    assert forall i :: 0 <= i < |s'.withdrawals| ==>
      s'.withdrawals[i].amount == s.withdrawals[i].amount && s'.withdrawals[i].merchant == s.withdrawals[i].merchant;
  }

  /** Replacing a withdrawal's record by one for the same merchant and
      amount keeps the store invariants. */
  lemma ReplaceWithdrawalPreservesValid(s: Store, wid: nat, w: Withdrawal)
    requires Valid(s) && wid < |s.withdrawals|
    requires w.merchant == s.withdrawals[wid].merchant && w.amount == s.withdrawals[wid].amount
    ensures Valid(s.(withdrawals := s.withdrawals[wid := w]))
  {
  }

  /** One delivery of `dispatch_settlement(wid)`. */
  function Dispatch(s: Store, wid: nat, retries: nat, reply: SettlementService.HttpReply): (r: Step)
    ensures r.outcome == Missing <==> wid >= |s.withdrawals|
    ensures r.store.pool != s.pool || r.store.ledger != s.ledger || r.store.credits != s.credits
         ==> r.outcome.Settled?
    ensures r.store.merchants == s.merchants && |r.store.withdrawals| == |s.withdrawals|
  {
    if wid >= |s.withdrawals| then Step(s, Missing)
    else
      var w := s.withdrawals[wid];
      if IsTerminal(w.status) then Step(s, AlreadyFinal(w.status, w.bankReference))
      else if Transient(reply) then
        if retries >= MaxRetries then Step(SetStatus(s, wid, Failed), GaveUp) else Step(s, Retry)
      else if reply.code != 200 then Step(SetStatus(s, wid, Failed), Rejected(reply.code))
      else Finalize(s, wid, reply.body.bankReference)
  }

  /** The locked block after a 200: re-read the withdrawal, stop if it is
      already SUCCESS, otherwise consume its amount and mark it SUCCESS
      with the reply's bank reference (absent reads as ""). If the
      consumption raises, the status write never happens. */
  function Finalize(s: Store, wid: nat, reference: Option<string>): (r: Step)
    requires wid < |s.withdrawals|
    ensures r.outcome.Settled? || r.outcome.AlreadySettled? || r.outcome.ConsumeFailed?
    ensures !r.outcome.Settled? ==> r.store == s
    ensures r.outcome.Settled? ==>
      var w := s.withdrawals[wid];
      && w.status != Success
      && r.outcome.bankReference == reference.GetOr("")
      && |r.store.withdrawals| == |s.withdrawals|
      && r.store.withdrawals[wid] == w.(status := Success, bankReference := reference.GetOr(""))
      && ConsumeCredit(s, w.merchant, w.account, w.amount).Ok?
      && r.store == ConsumeCredit(s, w.merchant, w.account, w.amount).value.store
           .(withdrawals := r.store.withdrawals)
  {
    var w := s.withdrawals[wid];
    if w.status == Success then Step(s, AlreadySettled(w.bankReference))
    else
      match ConsumeCredit(s, w.merchant, w.account, w.amount)
      case Err(e) => Step(s, ConsumeFailed(e))
      case Ok(c) =>
        var ref := reference.GetOr("");
        Step(c.store.(withdrawals := c.store.withdrawals[wid := w.(status := Success, bankReference := ref)]),
             Settled(ref))
  }

  // ---------------------------------------------------------------------
  // One delivery

  /** A withdrawal already SUCCESS or FAILED is reported as it is stored,
      and nothing changes. */
  lemma TerminalIsNoOp(s: Store, wid: nat, retries: nat, reply: SettlementService.HttpReply)
    requires wid < |s.withdrawals| && IsTerminal(s.withdrawals[wid].status)
    ensures Dispatch(s, wid, retries, reply)
         == Step(s, AlreadyFinal(s.withdrawals[wid].status, s.withdrawals[wid].bankReference))
  {
  }

  /** A transient failure changes nothing while fewer than `MaxRetries`
      retries have been made; from then on it makes the withdrawal FAILED
      and nothing else changes. */
  lemma TransientRetriesThenFails(s: Store, wid: nat, retries: nat, reply: SettlementService.HttpReply)
    requires wid < |s.withdrawals| && !IsTerminal(s.withdrawals[wid].status)
    requires Transient(reply)
    ensures retries < MaxRetries ==> Dispatch(s, wid, retries, reply) == Step(s, Retry)
    ensures retries >= MaxRetries ==> Dispatch(s, wid, retries, reply) == Step(SetStatus(s, wid, Failed), GaveUp)
  {
  }

  /** The replies `Transient` names are exactly the ones the handler
      re-raises: on a pending withdrawal they, and only they, end in a
      retry while retries remain and in giving up once they do not. */
  lemma TransientIsReraised(s: Store, wid: nat, retries: nat, reply: SettlementService.HttpReply)
    requires wid < |s.withdrawals| && !IsTerminal(s.withdrawals[wid].status)
    ensures retries < MaxRetries ==> (Dispatch(s, wid, retries, reply).outcome == Retry <==> Transient(reply))
    ensures retries >= MaxRetries ==> (Dispatch(s, wid, retries, reply).outcome == GaveUp <==> Transient(reply))
    ensures !Transient(reply) ==> reply.Http? && reply.code < 500 && (reply.code != 200 || reply.body.Json?)
  {
  }

  /** A non-200 answer below 500 fails the withdrawal at once, whatever
      the retry count, with no consumption. */
  lemma ClientErrorFailsAtOnce(s: Store, wid: nat, retries: nat, code: int, body: SettlementService.Body)
    requires wid < |s.withdrawals| && !IsTerminal(s.withdrawals[wid].status)
    requires code != 200 && code < 500
    ensures Dispatch(s, wid, retries, SettlementService.Http(code, body))
         == Step(SetStatus(s, wid, Failed), Rejected(code))
  {
  }

  /** A 200 with a JSON body leads to exactly one consumption of the
      withdrawal's amount and then SUCCESS with the reply's reference;
      the body's "status" is never looked at. */
  lemma OkConsumesOnce(s: Store, wid: nat, retries: nat, status: Option<string>, reference: Option<string>)
    requires wid < |s.withdrawals| && !IsTerminal(s.withdrawals[wid].status)
    requires var w := s.withdrawals[wid]; ConsumeCredit(s, w.merchant, w.account, w.amount).Ok?
    ensures var w := s.withdrawals[wid];
      var c := ConsumeCredit(s, w.merchant, w.account, w.amount).value;
      var r := Dispatch(s, wid, retries, SettlementService.Http(200, SettlementService.Json(status, reference)));
      && r.outcome == Settled(reference.GetOr(""))
      && r.store.pool == s.pool - w.amount
      && r.store.ledger == s.ledger + [
           LedgerEntry(c.txId, w.merchant, w.account, Debit, CreditPoolSource, w.amount),
           LedgerEntry(c.txId, w.merchant, w.account, Credit, MerchantCreditSource, w.amount)]
      && r.store.withdrawals == s.withdrawals[wid := w.(status := Success, bankReference := reference.GetOr(""))]
  {
  }

  /** Unlike the synchronous view, the task does not read the reply's
      "status": a 200 saying "REJECTED" is settled like one saying
      "SUCCESS". */
  lemma BodyStatusNotInspected(s: Store, wid: nat, retries: nat, st1: Option<string>, st2: Option<string>, reference: Option<string>)
    ensures Dispatch(s, wid, retries, SettlementService.Http(200, SettlementService.Json(st1, reference)))
         == Dispatch(s, wid, retries, SettlementService.Http(200, SettlementService.Json(st2, reference)))
  {
  }

  /** A consumption that raises rolls the status write back with it: the
      withdrawal keeps its prior status (PENDING or QUEUED) and is not
      marked FAILED. */
  lemma ConsumeErrorKeepsStatus(s: Store, wid: nat, retries: nat, body: SettlementService.Body)
    requires wid < |s.withdrawals| && !IsTerminal(s.withdrawals[wid].status) && body.Json?
    requires var w := s.withdrawals[wid]; ConsumeCredit(s, w.merchant, w.account, w.amount).Err?
    ensures var w := s.withdrawals[wid];
      Dispatch(s, wid, retries, SettlementService.Http(200, body))
      == Step(s, ConsumeFailed(ConsumeCredit(s, w.merchant, w.account, w.amount).error))
  {
  }

  /** The re-read guard tests for SUCCESS only. A withdrawal that turned
      FAILED between the entry guard and the locked re-read (a concurrent
      delivery that gave up) is still consumed and revived to SUCCESS. */
  lemma FinalizeRevivesFailed(s: Store, wid: nat, reference: Option<string>)
    requires wid < |s.withdrawals| && s.withdrawals[wid].status == Failed
    requires var w := s.withdrawals[wid]; ConsumeCredit(s, w.merchant, w.account, w.amount).Ok?
    ensures var r := Finalize(s, wid, reference);
      r.outcome.Settled? && r.store.withdrawals[wid].status == Success
  {
  }

  /** Every delivery keeps the store invariants. */
  lemma DispatchPreservesValid(s: Store, wid: nat, retries: nat, reply: SettlementService.HttpReply)
    requires Valid(s)
    ensures Valid(Dispatch(s, wid, retries, reply).store)
  {
    if wid < |s.withdrawals| && !IsTerminal(s.withdrawals[wid].status) {
      if Transient(reply) {
        if retries >= MaxRetries {
          SetStatusPreservesValid(s, wid, Failed);
        }
      } else if reply.code != 200 {
        SetStatusPreservesValid(s, wid, Failed);
      } else {
        FinalizePreservesValid(s, wid, reply.body.bankReference);
      }
    }
  }

  /** The locked finalisation keeps the store invariants. */
  lemma FinalizePreservesValid(s: Store, wid: nat, reference: Option<string>)
    requires Valid(s) && wid < |s.withdrawals|
    ensures Valid(Finalize(s, wid, reference).store)
  {
    var w := s.withdrawals[wid];
    if w.status != Success {
      var c := ConsumeCredit(s, w.merchant, w.account, w.amount);
      if c.Ok? {
        ConsumePreservesValid(s, w.merchant, w.account, w.amount);
        ReplaceWithdrawalPreservesValid(c.value.store, wid,
          w.(status := Success, bankReference := reference.GetOr("")));
      }
    }
  }

  // ---------------------------------------------------------------------
  // Repeated deliveries

  datatype Delivery = Delivery(retries: nat, reply: SettlementService.HttpReply)

  /** Deliveries of the task for one withdrawal, one after the other. */
  function DeliverAll(s: Store, wid: nat, ds: seq<Delivery>): (r: (Store, seq<Outcome>))
    ensures |r.1| == |ds|
    decreases |ds|
  {
    if ds == [] then (s, [])
    else
      var step := Dispatch(s, wid, ds[0].retries, ds[0].reply);
      var rest := DeliverAll(step.store, wid, ds[1..]);
      (rest.0, [step.outcome] + rest.1)
  }

  function SettledCount(outs: seq<Outcome>): nat {
    if outs == [] then 0 else (if outs[0].Settled? then 1 else 0) + SettledCount(outs[1..])
  }

  /** Once settled, every later delivery is turned away by the entry guard. */
  lemma {:induction false} DeliveriesAfterSuccess(s: Store, wid: nat, ds: seq<Delivery>)
    requires wid < |s.withdrawals| && s.withdrawals[wid].status == Success
    ensures DeliverAll(s, wid, ds).0 == s && SettledCount(DeliverAll(s, wid, ds).1) == 0
    decreases |ds|
  {
    if ds != [] {
      DeliveriesAfterSuccess(s, wid, ds[1..]);
    }
  }

  /** However often the task is delivered for one withdrawal (duplicate
      queue deliveries, retries), its amount is consumed at most once: at
      most one delivery settles and the ledger grows by at most one pair. */
  lemma {:induction false} AtMostOneConsumption(s: Store, wid: nat, ds: seq<Delivery>)
    ensures var r := DeliverAll(s, wid, ds);
      && SettledCount(r.1) <= 1
      && |s.ledger| <= |r.0.ledger| <= |s.ledger| + 2
    decreases |ds|
  {
    if ds != [] {
      var step := Dispatch(s, wid, ds[0].retries, ds[0].reply);
      if step.outcome.Settled? {
        DeliveriesAfterSuccess(step.store, wid, ds[1..]);
      } else {
        AtMostOneConsumption(step.store, wid, ds[1..]);
      }
    }
  }

  /** The two retry bounds disagree: within the decorator's budget the
      fourth delivery (retries == 3) already marks the withdrawal FAILED
      after a transient failure, so a fifth delivery whose call would
      have been answered 200 is turned away by the entry guard and
      nothing is ever settled. */
  lemma GivesUpWithinRetryBudget(s: Store, wid: nat, reply: SettlementService.HttpReply, last: SettlementService.HttpReply)
    requires wid < |s.withdrawals| && !IsTerminal(s.withdrawals[wid].status)
    requires Transient(reply)
    ensures var r := DeliverAll(s, wid, [Delivery(0, reply), Delivery(1, reply), Delivery(2, reply),
                                         Delivery(3, reply), Delivery(4, last)]);
      && r.0 == SetStatus(s, wid, Failed)
      && r.1 == [Retry, Retry, Retry, GaveUp, AlreadyFinal(Failed, s.withdrawals[wid].bankReference)]
      && SettledCount(r.1) == 0
  {
    var f := SetStatus(s, wid, Failed);
    var fin := AlreadyFinal(Failed, s.withdrawals[wid].bankReference);
    var d4 := [Delivery(4, last)];
    TerminalIsNoOp(f, wid, 4, last);
    assert d4[0] == Delivery(4, last) && d4[1..] == [];
    assert DeliverAll(f, wid, []) == (f, []);
    assert [fin] + [] == [fin];
    assert DeliverAll(f, wid, d4) == (f, [fin]);
    var d3 := [Delivery(3, reply)] + d4;
    assert d3[0] == Delivery(3, reply) && d3[1..] == d4;
    assert Dispatch(s, wid, 3, reply) == Step(f, GaveUp);
    assert [GaveUp] + [fin] == [GaveUp, fin];
    assert DeliverAll(s, wid, d3) == (f, [GaveUp, fin]);
    var d2 := [Delivery(2, reply)] + d3;
    assert d2[0] == Delivery(2, reply) && d2[1..] == d3;
    assert Dispatch(s, wid, 2, reply) == Step(s, Retry);
    assert [Retry] + [GaveUp, fin] == [Retry, GaveUp, fin];
    assert DeliverAll(s, wid, d2) == (f, [Retry, GaveUp, fin]);
    var d1 := [Delivery(1, reply)] + d2;
    assert d1[0] == Delivery(1, reply) && d1[1..] == d2;
    assert Dispatch(s, wid, 1, reply) == Step(s, Retry);
    assert [Retry] + [Retry, GaveUp, fin] == [Retry, Retry, GaveUp, fin];
    assert DeliverAll(s, wid, d1) == (f, [Retry, Retry, GaveUp, fin]);
    var d0 := [Delivery(0, reply)] + d1;
    assert d0[0] == Delivery(0, reply) && d0[1..] == d1;
    assert Dispatch(s, wid, 0, reply) == Step(s, Retry);
    assert [Retry] + [Retry, Retry, GaveUp, fin] == [Retry, Retry, Retry, GaveUp, fin];
    assert DeliverAll(s, wid, d0) == (f, [Retry, Retry, Retry, GaveUp, fin]);
    assert d0 == [Delivery(0, reply), Delivery(1, reply), Delivery(2, reply), Delivery(3, reply), Delivery(4, last)];
    NoSettlement([Retry, Retry, Retry, GaveUp, fin]);
  }

  lemma {:induction false} NoSettlement(outs: seq<Outcome>)
    requires forall i :: 0 <= i < |outs| ==> !outs[i].Settled?
    ensures SettledCount(outs) == 0
  {
    if outs != [] {
      NoSettlement(outs[1..]);
    }
  }
}

=== FILE: text.dfy ===
/** The few pieces of Python string behaviour the wallet relies on:
    `str()` of an integer, `str.replace(c, '')`, the slice `s[:n]` and
    `s.split(' ', 1)[1]`. Strings are `seq<char>`. */
module Text {
  import opened Results

  predicate IsDigit(c: char) {
    '0' <= c <= '9'
  }

  predicate AllDigits(s: string) {
    forall i :: 0 <= i < |s| ==> IsDigit(s[i])
  }

  function DigitChar(d: nat): (c: char)
    requires d < 10
    ensures IsDigit(c) && c as int - '0' as int == d
  {
    ('0' as int + d) as char
  }

  function DigitValue(c: char): (d: nat)
    requires IsDigit(c)
    ensures d < 10
  {
    c as int - '0' as int
  }

  /** Decimal rendering of a natural number without leading zeros, as
      Python's `str(n)` produces it. */
  function NatToString(n: nat): (s: string)
    ensures 1 <= |s| && AllDigits(s)
    ensures 1 < |s| ==> s[0] != '0'
    decreases n
  {
    if n < 10 then [DigitChar(n)] else NatToString(n / 10) + [DigitChar(n % 10)]
  }

  /** The number a string of digits denotes (most significant digit first). */
  function DigitsValue(s: string): nat
    requires AllDigits(s)
  {
    if s == [] then 0 else DigitsValue(s[..|s| - 1]) * 10 + DigitValue(s[|s| - 1])
  }

  /** Reading back the rendering of `n` gives `n`: the rendering loses nothing. */
  lemma {:induction false} DigitsValueOfNatToString(n: nat)
    ensures DigitsValue(NatToString(n)) == n
    decreases n
  {
    if n >= 10 {
      var s := NatToString(n);
      assert s[..|s| - 1] == NatToString(n / 10);
      DigitsValueOfNatToString(n / 10);
    }
  }

  /** Distinct numbers have distinct renderings. */
  lemma NatToStringInjective(a: nat, b: nat)
    ensures NatToString(a) == NatToString(b) <==> a == b
  {
    DigitsValueOfNatToString(a);
    DigitsValueOfNatToString(b);
  }

  /** Python's `str()` of an integer: a '-' sign in front of negatives. */
  function IntToString(i: int): (s: string)
    ensures 1 <= |s|
    ensures i < 0 <==> s[0] == '-'
    ensures AllDigits(if i < 0 then s[1..] else s)
    ensures DigitsValue(if i < 0 then s[1..] else s) == if i < 0 then -i else i
    ensures var d := if i < 0 then s[1..] else s; 1 < |d| ==> d[0] != '0'
  {
    DigitsValueOfNatToString(if i < 0 then -i else i);
    if i < 0 then
      assert ("-" + NatToString(-i))[1..] == NatToString(-i);
      "-" + NatToString(-i)
    else NatToString(i)
  }

  /** Python's `s.replace(c, '')`: every occurrence of `c` dropped, every
      other character kept in order. */
  function RemoveAll(s: string, c: char): (r: string)
    ensures c !in r
    ensures |r| <= |s|
    ensures forall x :: x != c ==> multiset(r)[x] == multiset(s)[x]
  {
    if s == [] then []
    else
      var rest := RemoveAll(s[1..], c);
      assert s == [s[0]] + s[1..];
      if s[0] == c then rest else [s[0]] + rest
  }

  /** Removal distributes over concatenation. */
  lemma {:induction false} RemoveAllConcat(a: string, b: string, c: char)
    ensures RemoveAll(a + b, c) == RemoveAll(a, c) + RemoveAll(b, c)
    decreases |a|
  {
    if a != [] {
      assert (a + b)[0] == a[0];
      assert (a + b)[1..] == a[1..] + b;
      RemoveAllConcat(a[1..], b, c);
      var x, y := RemoveAll(a[1..], c), RemoveAll(b, c);
      if a[0] == c {
        assert RemoveAll(a, c) == x;
        assert RemoveAll(a + b, c) == RemoveAll(a[1..] + b, c);
      } else {
        assert RemoveAll(a, c) == [a[0]] + x;
        assert RemoveAll(a + b, c) == [a[0]] + (x + y);
        assert [a[0]] + (x + y) == ([a[0]] + x) + y;
      }
    } else {
      assert a + b == b;
    }
  }

  /** A string without `c` is left as it is. */
  lemma {:induction false} RemoveAllAbsent(s: string, c: char)
    requires c !in s
    ensures RemoveAll(s, c) == s
    decreases |s|
  {
    if s != [] {
      RemoveAllAbsent(s[1..], c);
      assert s == [s[0]] + s[1..];
    }
  }

  /** Python's slice `s[:n]`: the first `n` characters, or all of `s` when
      it is shorter. */
  function Take(s: string, n: nat): (r: string)
    ensures |r| <= n && |r| <= |s|
    ensures r == s[..|r|]
    ensures |s| <= n ==> r == s
    ensures n <= |s| ==> |r| == n
  {
    if |s| <= n then s else s[..n]
  }

  /** Index of the first occurrence of `c` in `s`, if any. */
  function FirstIndexOf(s: string, c: char): (r: Option<nat>)
    ensures r.Some? ==> r.value < |s| && s[r.value] == c && c !in s[..r.value]
    ensures r.None? ==> c !in s
  {
    if s == [] then None
    else if s[0] == c then Some(0)
    else
      match FirstIndexOf(s[1..], c)
      case None => None
      case Some(k) =>
        assert s[..k + 1] == [s[0]] + s[1..][..k];
        Some(k + 1)
  }

  /** Index of the last occurrence of `c` in `s`, if any. */
  function LastIndexOf(s: string, c: char): (r: Option<nat>)
    ensures r.Some? ==> r.value < |s| && s[r.value] == c && c !in s[r.value + 1..]
    ensures r.None? ==> c !in s
    decreases |s|
  {
    if s == [] then None
    else if s[|s| - 1] == c then Some(|s| - 1)
    else
      var init := s[..|s| - 1];
      assert s == init + [s[|s| - 1]];
      match LastIndexOf(init, c)
      case None => None
      case Some(k) =>
        assert s[k + 1..] == init[k + 1..] + [s[|s| - 1]];
        Some(k)
  }

  /** In `x + [c] + y` with no `c` in `x`, the first `c` is the one after `x`. */
  lemma FirstIndexOfSplit(x: string, c: char, y: string)
    requires c !in x
    ensures FirstIndexOf(x + [c] + y, c) == Some(|x|)
  {
    var s := x + [c] + y;
    assert s[|x|] == c;
    var k := FirstIndexOf(s, c).value;
    assert forall i :: 0 <= i < |x| ==> s[i] == x[i];
    assert forall i :: 0 <= i < k ==> s[..k][i] == s[i];
  }

  /** In `x + [c] + y` with no `c` in `y`, the last `c` is the one before `y`. */
  lemma LastIndexOfSplit(x: string, c: char, y: string)
    requires c !in y
    ensures LastIndexOf(x + [c] + y, c) == Some(|x|)
  {
    var s := x + [c] + y;
    assert s[|x| + 1..] == y;
    LastIndexAt(s, c, |x|);
  }

  /** An occurrence with none after it is the last one. */
  lemma LastIndexAt(s: string, c: char, i: nat)
    requires i < |s| && s[i] == c && c !in s[i + 1..]
    ensures LastIndexOf(s, c) == Some(i)
  {
    var k := LastIndexOf(s, c).value;
    NoneAfter(s, c, k);
    NoneAfter(s, c, i);
  }

  lemma NoneAfter(s: string, c: char, k: nat)
    requires k < |s| && c !in s[k + 1..]
    ensures forall j :: k < j < |s| ==> s[j] != c
  {
    forall j | k < j < |s|
      ensures s[j] != c
    {
      assert s[k + 1..][j - k - 1] == s[j];
    }
  }

  /** Python's `s.split(sep, 1)[1]`: the text after the first `sep`; the
      indexing raises (None here) when `sep` does not occur. */
  function AfterFirst(s: string, sep: char): (r: Option<string>)
    ensures r.None? <==> sep !in s
    ensures r.Some? ==>
      var k := |s| - |r.value| - 1;
      && 0 <= k && s[k] == sep && sep !in s[..k]
      && r.value == s[k + 1..]
  {
    match FirstIndexOf(s, sep)
    case None => None
    case Some(k) => Some(s[k + 1..])
  }

  /** When `s` begins with `p` and `p` holds its first `sep` at its end,
      the text after the first `sep` is exactly the text after `p`. */
  lemma AfterFirstOfPrefix(s: string, p: string, sep: char)
    requires |p| >= 1 && p <= s && p[|p| - 1] == sep && sep !in p[..|p| - 1]
    ensures AfterFirst(s, sep) == Some(s[|p|..])
  {
    assert s[|p| - 1] == sep;
    assert s[..|p| - 1] == p[..|p| - 1];
  }
}

=== FILE: views.dfy ===
/** The withdrawal endpoint `create_withdrawal` and the admin pool top-up
    `admin_topup_pool` (payments/views.py).

    A request is handled by one function from the service's state to the
    next state and a response. The collaborators are inputs: the clock for
    the rate limiter, and the settlement service's reply for the
    synchronous path. The Redis counters, the idempotency table, the task
    queue and the cached `me` profiles are part of the state. The audit
    log is not modelled. */
module Views {
  import opened Results
  import opened Models
  import Text
  import RateLimit
  import SettlementService
  import Tasks

  /** `RL_WINDOW_SEC`, `RL_MAX_REQUESTS` and `ASYNC_SETTLEMENT == '1'`. */
  datatype Config = Config(rlWindow: int, rlLimit: int, asyncSettlement: bool)

  /** One POST. `merchant` is the caller's merchant, if the user has one.
      `fingerprint` is the canonical JSON dump of the body whose SHA-256 is
      the request hash; comparing dumps treats the hash as collision-free.
      `amount` is what the serializer made of the "amount" field, in cents
      (None when it is missing or not a two-place decimal). */
  datatype Request = Request(
    user: nat,
    merchant: Option<MerchantId>,
    idemKey: Option<string>,
    fingerprint: string,
    amount: Option<int>)

  /** The JSON bodies that are stored for replay. */
  datatype Out =
    | QueuedOut(withdrawalId: nat)
    | FinalizedOut(withdrawalId: nat, amount: int, bankReference: string, txId: Uuid)

  datatype Body =
    | RateLimited(retryInSeconds: int)
    | Detail(detail: string)
    | Invalid        // the serializer's field errors
    | ServerError    // an exception the view does not catch
    | Stored(out: Out)

  datatype Response = Response(code: int, body: Body)

  datatype IdemRecord = IdemRecord(requestHash: string, response: Out)

  /** The database, the idempotency table, the Redis rate-limit counters,
      the ids handed to the task queue, and the users whose `me` profile
      is cached. */
  datatype Service = Service(
    db: Store,
    idem: map<string, IdemRecord>,
    counters: RateLimit.Counters,
    queue: seq<nat>,
    cachedProfiles: set<nat>)

  datatype Handled = Handled(service: Service, response: Response)

  /** `f"merchant:{request.user.id}:withdrawals"`. */
  function RateKey(user: nat): string {
    "merchant:" + Text.NatToString(user) + ":withdrawals"
  }

  /** `if idem_key:` — an absent or empty header means no key. */
  predicate HasKey(k: Option<string>) {
    k.Some? && k.value != ""
  }

  /** The idempotency write made when the request carries a key. */
  function Remember(idem: map<string, IdemRecord>, req: Request, out: Out): (r: map<string, IdemRecord>)
    ensures HasKey(req.idemKey) ==> r == idem[req.idemKey.value := IdemRecord(req.fingerprint, out)]
    ensures !HasKey(req.idemKey) ==> r == idem
  {
    if HasKey(req.idemKey) then idem[req.idemKey.value := IdemRecord(req.fingerprint, out)] else idem
  }

  // ---------------------------------------------------------------------
  // Amount validation

  /** The serializer as written: a DecimalField with no lower bound, and
      `objects.create` does not run the model's MinValueValidator, so any
      amount, zero and negative ones included, reaches consumption. */
  function ValidateAmountAsWritten(amount: Option<int>): (r: Option<int>)
    ensures r.Some? <==> amount.Some?
    ensures r.Some? ==> r.value == amount.value
  {
    amount
  }

  /** The validation the model's `MinValueValidator(0.01)` evidently asks
      for: amounts of at least one cent. */
  function ValidateAmount(amount: Option<int>): (r: Option<int>)
    ensures r.Some? <==> amount.Some? && amount.value > 0
    ensures r.Some? ==> r.value == amount.value
  {
    if amount.Some? && amount.value > 0 then amount else None
  }

  /** The two validations agree on every amount of at least one cent; they
      differ exactly on the zero and negative amounts, which the serializer
      as written lets through and the corrected validation refuses. */
  lemma ValidationGap(amount: Option<int>)
    ensures amount.Some? && amount.value > 0 ==> ValidateAmount(amount) == ValidateAmountAsWritten(amount)
    ensures ValidateAmount(amount) != ValidateAmountAsWritten(amount)
        <==> amount.Some? && amount.value <= 0
    ensures ValidateAmount(amount) != ValidateAmountAsWritten(amount) ==> ValidateAmount(amount).None?
  {
  }

  /** The gap the corrected validation closes: a withdrawal of -5.00 passes
      the serializer as written and its consumption succeeds, lowering the
      merchant's utilized credit and raising the pool by 5.00 without any
      money coming in. */
  lemma NegativeWithdrawalRaisesPool()
    ensures var s := Store(0, map[1 := Merchant("m", true, 0, "", 1)], map[1 := MerchantCredit(1000, 800)],
                           [LedgerEntry(1, 1, 1, Debit, CreditPoolSource, 800),
                            LedgerEntry(1, 1, 1, Credit, MerchantCreditSource, 800)],
                           [], 2, 2, {"m"});
      && Valid(s)
      && ValidateAmountAsWritten(Some(-500)) == Some(-500)
      && ValidateAmount(Some(-500)).None?
      && ConsumeCredit(s, 1, 1, -500).Ok?
      && ConsumeCredit(s, 1, 1, -500).value.store.pool == 500
      && ConsumeCredit(s, 1, 1, -500).value.store.credits[1].utilized == 300
  {
    var s := Store(0, map[1 := Merchant("m", true, 0, "", 1)], map[1 := MerchantCredit(1000, 800)],
                   [LedgerEntry(1, 1, 1, Debit, CreditPoolSource, 800),
                    LedgerEntry(1, 1, 1, Credit, MerchantCreditSource, 800)],
                   [], 2, 2, {"m"});
    assert s.ledger[..0] == [];
    assert s.ledger[..1] == [s.ledger[0]];
    assert Paired(s.ledger[..0]);
    assert Credited(s.ledger, 1) == 800;
  }

  // ---------------------------------------------------------------------
  // create_withdrawal

  /** A settlement failure on the synchronous path: the withdrawal is
      marked FAILED and nothing is stored under the key. */
  function Fail(svc: Service, wid: nat, code: int, detail: string): (h: Handled)
    requires wid < |svc.db.withdrawals|
    ensures h.service == svc.(db := Tasks.SetStatus(svc.db, wid, Failed))
    ensures h.response == Response(code, Detail(detail))
  {
    Handled(svc.(db := Tasks.SetStatus(svc.db, wid, Failed)), Response(code, Detail(detail)))
  }

  /** The synchronous path after the PENDING record `wid` exists: settle,
      then consume, then finalize. */
  function SettleSync(svc: Service, req: Request, wid: nat, reply: SettlementService.HttpReply): (h: Handled)
    requires wid < |svc.db.withdrawals|
    ensures h.service.db.ledger != svc.db.ledger ==> h.response.code == 200
    ensures h.service.queue == svc.queue && h.service.counters == svc.counters
    ensures h.response.body.Stored? ==> h.service.idem == Remember(svc.idem, req, h.response.body.out)
    ensures !h.response.body.Stored? ==> h.service.idem == svc.idem
  {
    var w := svc.db.withdrawals[wid];
    match reply
    case TransportError => Fail(svc, wid, 502, "SETTLEMENT_ERROR")
    case Http(code, body) =>
      if code != 200 then Fail(svc, wid, 502, "SETTLEMENT_FAILED")
      else if body.NotJson? then Fail(svc, wid, 502, "SETTLEMENT_ERROR")
      else if body.status != Some("SUCCESS") then Fail(svc, wid, 502, "SETTLEMENT_REJECTED")
      else
        match ConsumeCredit(svc.db, w.merchant, w.account, w.amount)
        case Err(InsufficientMerchantCredit) => Fail(svc, wid, 409, "INSUFFICIENT_MERCHANT_CREDIT")
        case Err(InsufficientPool) => Fail(svc, wid, 409, "INSUFFICIENT_POOL")
        case Err(_) => Handled(svc, Response(500, ServerError))
        case Ok(c) =>
          var ref := body.bankReference.GetOr("");
          var out := FinalizedOut(wid, w.amount, ref, c.txId);
          var db := c.store.(withdrawals := c.store.withdrawals[wid := w.(status := Success, bankReference := ref)]);
          Handled(svc.(db := db, cachedProfiles := svc.cachedProfiles - {req.user}, idem := Remember(svc.idem, req, out)),
                  Response(200, Stored(out)))
  }

  /** `create_withdrawal`: rate limit, idempotency, validation, approval,
      a PENDING record, then queueing or synchronous settlement. */
  function CreateWithdrawal(cfg: Config, svc: Service, req: Request, now: int, reply: SettlementService.HttpReply)
    : (h: Handled)
    requires cfg.rlWindow > 0
    ensures h.service.counters == RateLimit.Allow(svc.counters, RateKey(req.user), cfg.rlLimit, cfg.rlWindow, now).counters
    ensures h.response.code == 429 <==>
      !RateLimit.Allow(svc.counters, RateKey(req.user), cfg.rlLimit, cfg.rlWindow, now).allowed
    ensures h.service.db.ledger != svc.db.ledger ==> h.response.code == 200
    ensures |svc.db.withdrawals| <= |h.service.db.withdrawals| <= |svc.db.withdrawals| + 1
  {
    var d := RateLimit.Allow(svc.counters, RateKey(req.user), cfg.rlLimit, cfg.rlWindow, now);
    var svc1 := svc.(counters := d.counters);
    if !d.allowed then Handled(svc1, Response(429, RateLimited(cfg.rlWindow)))
    else if HasKey(req.idemKey) && req.idemKey.value in svc.idem then
      var rec := svc.idem[req.idemKey.value];
      if rec.requestHash == req.fingerprint then Handled(svc1, Response(200, Stored(rec.response)))
      else Handled(svc1, Response(409, Detail("IDEMPOTENCY_KEY_CONFLICT")))
    else
      match ValidateAmount(req.amount)
      case None => Handled(svc1, Response(400, Invalid))
      case Some(amount) =>
        if req.merchant.None? || req.merchant.value !in svc.db.merchants then
          Handled(svc1, Response(500, ServerError))
        else
          var m := req.merchant.value;
          if !svc.db.merchants[m].approved then Handled(svc1, Response(403, Detail("MERCHANT_NOT_APPROVED")))
          else
            var wid := |svc.db.withdrawals|;
            var w := Withdrawal(m, svc.db.merchants[m].account, amount, Pending, "");
            var db := svc.db.(withdrawals := svc.db.withdrawals + [w]);
            if cfg.asyncSettlement then
              var out := QueuedOut(wid);
              Handled(svc1.(db := Tasks.SetStatus(db, wid, Queued), queue := svc.queue + [wid],
                            idem := Remember(svc.idem, req, out)),
                      Response(202, Stored(out)))
            else SettleSync(svc1.(db := db), req, wid, reply)
  }

  /** The state after the gates pass: the counters moved and a PENDING
      withdrawal of the validated amount appended. */
  function Recorded(cfg: Config, svc: Service, req: Request, now: int): Service
    requires cfg.rlWindow > 0
    requires req.merchant.Some? && req.merchant.value in svc.db.merchants && req.amount.Some?
  {
    var m := req.merchant.value;
    svc.(counters := RateLimit.Allow(svc.counters, RateKey(req.user), cfg.rlLimit, cfg.rlWindow, now).counters,
         db := svc.db.(withdrawals := svc.db.withdrawals
                 + [Withdrawal(m, svc.db.merchants[m].account, req.amount.value, Pending, "")]))
  }

  /** The gates a request passes before a withdrawal is recorded. */
  predicate PassesGates(cfg: Config, svc: Service, req: Request, now: int)
    requires cfg.rlWindow > 0
  {
    && RateLimit.Allow(svc.counters, RateKey(req.user), cfg.rlLimit, cfg.rlWindow, now).allowed
    && !(HasKey(req.idemKey) && req.idemKey.value in svc.idem)
    && ValidateAmount(req.amount).Some?
    && req.merchant.Some? && req.merchant.value in svc.db.merchants
    && svc.db.merchants[req.merchant.value].approved
  }

  // ---------------------------------------------------------------------
  // The gates

  /** A denied request gets 429 with the window length as the retry hint;
      only its own counter moved. The limiter runs before the idempotency
      lookup, so replays use up slots too. */
  lemma RateLimitComesFirst(cfg: Config, svc: Service, req: Request, now: int, reply: SettlementService.HttpReply)
    requires cfg.rlWindow > 0
    requires !RateLimit.Allow(svc.counters, RateKey(req.user), cfg.rlLimit, cfg.rlWindow, now).allowed
    ensures var d := RateLimit.Allow(svc.counters, RateKey(req.user), cfg.rlLimit, cfg.rlWindow, now);
      CreateWithdrawal(cfg, svc, req, now, reply)
      == Handled(svc.(counters := d.counters), Response(429, RateLimited(cfg.rlWindow)))
  {
  }

  /** A known key with the same request hash replays the stored response
      with 200; no withdrawal, settlement or consumption happens. */
  lemma ReplayReturnsStored(cfg: Config, svc: Service, req: Request, now: int, reply: SettlementService.HttpReply)
    requires cfg.rlWindow > 0
    requires RateLimit.Allow(svc.counters, RateKey(req.user), cfg.rlLimit, cfg.rlWindow, now).allowed
    requires HasKey(req.idemKey) && req.idemKey.value in svc.idem
    requires svc.idem[req.idemKey.value].requestHash == req.fingerprint
    ensures var h := CreateWithdrawal(cfg, svc, req, now, reply);
      && h.response == Response(200, Stored(svc.idem[req.idemKey.value].response))
      && h.service.db == svc.db && h.service.idem == svc.idem && h.service.queue == svc.queue
  {
  }

  /** A known key with a different request hash is a 409 with no effect
      beyond the rate-limit counter. */
  lemma KeyConflict(cfg: Config, svc: Service, req: Request, now: int, reply: SettlementService.HttpReply)
    requires cfg.rlWindow > 0
    requires RateLimit.Allow(svc.counters, RateKey(req.user), cfg.rlLimit, cfg.rlWindow, now).allowed
    requires HasKey(req.idemKey) && req.idemKey.value in svc.idem
    requires svc.idem[req.idemKey.value].requestHash != req.fingerprint
    ensures var h := CreateWithdrawal(cfg, svc, req, now, reply);
      && h.response == Response(409, Detail("IDEMPOTENCY_KEY_CONFLICT"))
      && h.service.db == svc.db && h.service.idem == svc.idem && h.service.queue == svc.queue
  {
  }

  /** An empty Idempotency-Key header is no key: the request is processed
      afresh even if "" is in the table. */
  lemma EmptyKeyIsNoKey(cfg: Config, svc: Service, req: Request, now: int, reply: SettlementService.HttpReply)
    requires cfg.rlWindow > 0 && req.idemKey == Some("")
    ensures CreateWithdrawal(cfg, svc, req, now, reply)
         == CreateWithdrawal(cfg, svc, req.(idemKey := None), now, reply)
  {
  }

  /** An amount that is missing, malformed, zero or negative is a 400 and
      no withdrawal is recorded. */
  lemma InvalidAmountRejected(cfg: Config, svc: Service, req: Request, now: int, reply: SettlementService.HttpReply)
    requires cfg.rlWindow > 0
    requires RateLimit.Allow(svc.counters, RateKey(req.user), cfg.rlLimit, cfg.rlWindow, now).allowed
    requires !(HasKey(req.idemKey) && req.idemKey.value in svc.idem)
    requires req.amount.None? || req.amount.value <= 0
    ensures var h := CreateWithdrawal(cfg, svc, req, now, reply);
      h.response == Response(400, Invalid) && h.service.db == svc.db && h.service.idem == svc.idem
  {
  }

  /** An unapproved merchant gets 403 and no withdrawal is recorded. */
  lemma UnapprovedForbidden(cfg: Config, svc: Service, req: Request, now: int, reply: SettlementService.HttpReply)
    requires cfg.rlWindow > 0
    requires RateLimit.Allow(svc.counters, RateKey(req.user), cfg.rlLimit, cfg.rlWindow, now).allowed
    requires !(HasKey(req.idemKey) && req.idemKey.value in svc.idem)
    requires ValidateAmount(req.amount).Some?
    requires req.merchant.Some? && req.merchant.value in svc.db.merchants
    requires !svc.db.merchants[req.merchant.value].approved
    ensures var h := CreateWithdrawal(cfg, svc, req, now, reply);
      && h.response == Response(403, Detail("MERCHANT_NOT_APPROVED"))
      && h.service.db == svc.db && h.service.idem == svc.idem && h.service.queue == svc.queue
  {
  }

  // ---------------------------------------------------------------------
  // After the gates

  /** Asynchronous mode: the new withdrawal is QUEUED and handed to the
      task, the response is 202 with its id, it is stored under the key if
      there is one, and nothing is consumed. */
  lemma AsyncQueues(cfg: Config, svc: Service, req: Request, now: int, reply: SettlementService.HttpReply)
    requires cfg.rlWindow > 0 && cfg.asyncSettlement
    requires PassesGates(cfg, svc, req, now)
    ensures var h := CreateWithdrawal(cfg, svc, req, now, reply);
      var wid := |svc.db.withdrawals|;
      var m := req.merchant.value;
      && h.response == Response(202, Stored(QueuedOut(wid)))
      && h.service.db.withdrawals
         == svc.db.withdrawals + [Withdrawal(m, svc.db.merchants[m].account, req.amount.value, Queued, "")]
      && h.service.queue == svc.queue + [wid]
      && h.service.idem == Remember(svc.idem, req, QueuedOut(wid))
      && h.service.db.ledger == svc.db.ledger && h.service.db.pool == svc.db.pool
      && h.service.db.credits == svc.db.credits
  {
  }

  /** Synchronous mode, settlement not confirmed (no response, a non-200,
      a body that is not JSON, or a "status" other than SUCCESS): 502, the
      withdrawal is FAILED, nothing is consumed and nothing stored under
      the key. */
  lemma SyncSettlementFailureFails(cfg: Config, svc: Service, req: Request, now: int, reply: SettlementService.HttpReply)
    requires cfg.rlWindow > 0 && !cfg.asyncSettlement
    requires PassesGates(cfg, svc, req, now)
    requires reply.TransportError? || reply.code != 200 || reply.body.NotJson? || reply.body.status != Some("SUCCESS")
    ensures var h := CreateWithdrawal(cfg, svc, req, now, reply);
      var p := Recorded(cfg, svc, req, now);
      var wid := |svc.db.withdrawals|;
      && h.response.code == 502
      && h.service == p.(db := Tasks.SetStatus(p.db, wid, Failed))
      && h.service.db.ledger == svc.db.ledger && h.service.db.pool == svc.db.pool
      && h.service.idem == svc.idem
  {
  }

  /** Synchronous mode, settlement confirmed but the consumption refused
      for credit or pool: 409 naming the shortage, the withdrawal FAILED,
      no ledger change, nothing stored under the key. */
  lemma SyncConsumeRefusedFails(cfg: Config, svc: Service, req: Request, now: int, reference: Option<string>)
    requires cfg.rlWindow > 0 && !cfg.asyncSettlement
    requires PassesGates(cfg, svc, req, now)
    requires var m := req.merchant.value;
      var e := ConsumeCredit(svc.db, m, svc.db.merchants[m].account, req.amount.value);
      e == Err(InsufficientMerchantCredit) || e == Err(InsufficientPool)
    ensures var h := CreateWithdrawal(cfg, svc, req, now,
                       SettlementService.Http(200, SettlementService.Json(Some("SUCCESS"), reference)));
      var p := Recorded(cfg, svc, req, now);
      var wid := |svc.db.withdrawals|;
      && h.response.code == 409
      && h.response.body == Detail(
           if ConsumeCredit(svc.db, req.merchant.value, svc.db.merchants[req.merchant.value].account, req.amount.value)
              == Err(InsufficientMerchantCredit)
           then "INSUFFICIENT_MERCHANT_CREDIT" else "INSUFFICIENT_POOL")
      && h.service == p.(db := Tasks.SetStatus(p.db, wid, Failed))
      && h.service.db.ledger == svc.db.ledger
  {
  }

  /** Synchronous success: the withdrawal is SUCCESS with the reply's
      reference (absent reads as ""), the amount is consumed once, the
      response carries id, amount, reference and transaction id, it is
      stored under the key, and the caller's cached profile is dropped. */
  lemma SyncSuccess(cfg: Config, svc: Service, req: Request, now: int, reference: Option<string>)
    requires cfg.rlWindow > 0 && !cfg.asyncSettlement
    requires PassesGates(cfg, svc, req, now)
    requires var m := req.merchant.value;
      ConsumeCredit(svc.db, m, svc.db.merchants[m].account, req.amount.value).Ok?
    ensures var h := CreateWithdrawal(cfg, svc, req, now,
                       SettlementService.Http(200, SettlementService.Json(Some("SUCCESS"), reference)));
      var m := req.merchant.value;
      var account := svc.db.merchants[m].account;
      var c := ConsumeCredit(svc.db, m, account, req.amount.value).value;
      var wid := |svc.db.withdrawals|;
      var out := FinalizedOut(wid, req.amount.value, reference.GetOr(""), c.txId);
      && h.response == Response(200, Stored(out))
      && h.service.db.withdrawals
         == svc.db.withdrawals + [Withdrawal(m, account, req.amount.value, Success, reference.GetOr(""))]
      && h.service.db.ledger == c.store.ledger
      && h.service.db.pool == svc.db.pool - req.amount.value
      && h.service.idem == Remember(svc.idem, req, out)
      && req.user !in h.service.cachedProfiles
  {
    var p := Recorded(cfg, svc, req, now);
    var m := req.merchant.value;
    var account := svc.db.merchants[m].account;
    ConsumeFrame(svc.db, p.db, m, account, req.amount.value);
  }

  /** Consumption reads and writes no withdrawal: appending one does not
      change its outcome. */
  lemma ConsumeFrame(s: Store, t: Store, m: MerchantId, account: Uuid, amount: int)
    requires t == s.(withdrawals := t.withdrawals)
    ensures ConsumeCredit(t, m, account, amount).Err? <==> ConsumeCredit(s, m, account, amount).Err?
    ensures ConsumeCredit(t, m, account, amount).Err? ==>
      ConsumeCredit(t, m, account, amount).error == ConsumeCredit(s, m, account, amount).error
    ensures ConsumeCredit(t, m, account, amount).Ok? ==>
      && ConsumeCredit(t, m, account, amount).value.txId == ConsumeCredit(s, m, account, amount).value.txId
      && ConsumeCredit(t, m, account, amount).value.store
         == ConsumeCredit(s, m, account, amount).value.store.(withdrawals := t.withdrawals)
  {
  }

  /** End to end with the settlement service: when the wallet's token is
      the service's own, a synchronous withdrawal that the credit and pool
      can cover ends SUCCESS with the bank reference the service derives
      from the posted merchant, account and amount. */
  lemma SyncWithSettlementService(cfg: Config, svc: Service, req: Request, now: int, token: string)
    requires cfg.rlWindow > 0 && !cfg.asyncSettlement
    requires PassesGates(cfg, svc, req, now)
    requires var m := req.merchant.value;
      ConsumeCredit(svc.db, m, svc.db.merchants[m].account, req.amount.value).Ok?
    ensures var p := Recorded(cfg, svc, req, now);
      var wid := |svc.db.withdrawals|;
      var sent := Tasks.SettlementRequest(p.db, p.db.withdrawals[wid]);
      var reply := SettlementService.OnTheWire(
        SettlementService.Withdraw(token, Some(SettlementService.BearerPrefix + token), sent));
      var h := CreateWithdrawal(cfg, svc, req, now, reply);
      && h.response.code == 200
      && h.service.db.withdrawals[wid].status == Success
      && h.service.db.withdrawals[wid].bankReference == SettlementService.BankReference(sent)
      && SettlementService.ParseReference(h.service.db.withdrawals[wid].bankReference)
         == Some(SettlementService.ReferenceParts(req.merchant.value, Text.Take(Tasks.AccountText(svc.db.merchants[req.merchant.value].account), 8), req.amount.value))
  {
    var p := Recorded(cfg, svc, req, now);
    var wid := |svc.db.withdrawals|;
    var sent := Tasks.SettlementRequest(p.db, p.db.withdrawals[wid]);
    SettlementService.SettledOnTheWire(token, sent);
    SettlementService.ReferenceRoundTrip(sent);
    var ref := SettlementService.BankReference(sent);
    SyncSuccess(cfg, svc, req, now, Some(ref));
  }

  // ---------------------------------------------------------------------
  // Invariants and idempotency across requests

  /** Past the gates, the synchronous path is `SettleSync` on the state
      with the PENDING record. */
  lemma SyncAfterGates(cfg: Config, svc: Service, req: Request, now: int, reply: SettlementService.HttpReply)
    requires cfg.rlWindow > 0 && !cfg.asyncSettlement && PassesGates(cfg, svc, req, now)
    ensures CreateWithdrawal(cfg, svc, req, now, reply)
         == SettleSync(Recorded(cfg, svc, req, now), req, |svc.db.withdrawals|, reply)
  {
  }

  /** The synchronous settlement keeps the store invariants. */
  lemma SettleSyncPreservesValid(svc: Service, req: Request, wid: nat, reply: SettlementService.HttpReply)
    requires Valid(svc.db) && wid < |svc.db.withdrawals|
    ensures Valid(SettleSync(svc, req, wid, reply).service.db)
  {
    var w := svc.db.withdrawals[wid];
    var h := SettleSync(svc, req, wid, reply);
    var r := ConsumeCredit(svc.db, w.merchant, w.account, w.amount);
    var settled := reply.Http? && reply.code == 200 && reply.body.Json? && reply.body.status == Some("SUCCESS");
    if !settled || r == Err(InsufficientMerchantCredit) || r == Err(InsufficientPool) {
      assert h.service.db == Tasks.SetStatus(svc.db, wid, Failed);
      Tasks.SetStatusPreservesValid(svc.db, wid, Failed);
    } else if r.Ok? {
      var w' := w.(status := Success, bankReference := reply.body.bankReference.GetOr(""));
      assert h.service.db == r.value.store.(withdrawals := r.value.store.withdrawals[wid := w']);
      ConsumePreservesValid(svc.db, w.merchant, w.account, w.amount);
      Tasks.ReplaceWithdrawalPreservesValid(r.value.store, wid, w');
    } else {
      assert false;
    }
  }

  /** Every request keeps the store invariants. */
  lemma CreateWithdrawalPreservesValid(cfg: Config, svc: Service, req: Request, now: int, reply: SettlementService.HttpReply)
    requires cfg.rlWindow > 0 && Valid(svc.db)
    ensures Valid(CreateWithdrawal(cfg, svc, req, now, reply).service.db)
  {
    if PassesGates(cfg, svc, req, now) {
      var p := Recorded(cfg, svc, req, now);
      var wid := |svc.db.withdrawals|;
      assert Valid(p.db);
      if cfg.asyncSettlement {
        Tasks.SetStatusPreservesValid(p.db, wid, Queued);
      } else {
        SyncAfterGates(cfg, svc, req, now, reply);
        SettleSyncPreservesValid(p, req, wid, reply);
      }
    }
  }

  /** Whenever a keyed request is answered with a stored-style response
      (the replay, the 202 or the 200), the table holds that response
      under the key with this request's hash. */
  lemma StoredIsRemembered(cfg: Config, svc: Service, req: Request, now: int, reply: SettlementService.HttpReply)
    requires cfg.rlWindow > 0 && HasKey(req.idemKey)
    requires CreateWithdrawal(cfg, svc, req, now, reply).response.body.Stored?
    ensures var h := CreateWithdrawal(cfg, svc, req, now, reply);
      && req.idemKey.value in h.service.idem
      && h.service.idem[req.idemKey.value] == IdemRecord(req.fingerprint, h.response.body.out)
  {
  }

  /** A request whose response was stored is answered from the table the
      second time: same response with 200, no new withdrawal, no new
      consumption. At most one withdrawal is made per idempotency key. */
  lemma RepeatIsReplayed(cfg: Config, svc: Service, req: Request, now1: int, now2: int,
                         reply1: SettlementService.HttpReply, reply2: SettlementService.HttpReply)
    requires cfg.rlWindow > 0 && HasKey(req.idemKey)
    requires CreateWithdrawal(cfg, svc, req, now1, reply1).response.body.Stored?
    requires var h1 := CreateWithdrawal(cfg, svc, req, now1, reply1).service;
      RateLimit.Allow(h1.counters, RateKey(req.user), cfg.rlLimit, cfg.rlWindow, now2).allowed
    ensures var h1 := CreateWithdrawal(cfg, svc, req, now1, reply1);
      var h2 := CreateWithdrawal(cfg, h1.service, req, now2, reply2);
      && h2.response == Response(200, h1.response.body)
      && h2.service.db == h1.service.db
      && h2.service.idem == h1.service.idem
  {
    StoredIsRemembered(cfg, svc, req, now1, reply1);
    var h1 := CreateWithdrawal(cfg, svc, req, now1, reply1);
    ReplayReturnsStored(cfg, h1.service, req, now2, reply2);
  }

  // ---------------------------------------------------------------------
  // admin_topup_pool

  /** The check constraint `pool_available_nonneg` rejecting the update. */
  datatype TopUpError = PoolWouldGoNegative

  /** `admin_topup_pool`: adds the amount to the pool under the pool's row
      lock. The serializer sets no lower bound, so a negative top-up is a
      withdrawal from the pool, refused only if the pool would go below 0. */
  function TopUpPool(s: Store, amount: int): (r: Result<Store, TopUpError>)
    ensures r.Ok? <==> s.pool + amount >= 0
    ensures r.Ok? ==> r.value.pool - s.pool == amount && r.value.(pool := s.pool) == s
  {
    if s.pool + amount < 0 then Err(PoolWouldGoNegative) else Ok(s.(pool := s.pool + amount))
  }

  /** A top-up keeps the store invariants, and it moves the pool's
      conserved total (pool plus everything the ledger debited from it) by
      exactly the amount. */
  lemma TopUpPreservesValid(s: Store, amount: int)
    requires Valid(s) && TopUpPool(s, amount).Ok?
    ensures Valid(TopUpPool(s, amount).value)
    ensures var s' := TopUpPool(s, amount).value;
      s'.pool + PoolDebited(s'.ledger) == s.pool + PoolDebited(s.ledger) + amount
  {
  }

  /** Two non-negative top-ups are one top-up of their sum. */
  lemma TopUpsCompose(s: Store, a: int, b: int)
    requires s.pool >= 0 && a >= 0 && b >= 0
    ensures TopUpPool(s, a).Ok? && TopUpPool(TopUpPool(s, a).value, b) == TopUpPool(s, a + b)
  {
  }
}
